=== FILE: README.md ===
# kubectl-mscale, modelled in Dafny

kubectl-mscale is a kubectl plugin. It scales workloads (deployments,
statefulsets, replicasets, replication controllers, jobs, cronjobs and
horizontal pod autoscalers) across several namespaces at once. It has
three ways of choosing the objects:

- explicit names, given as arguments;
- every object of a kind, as listed in each namespace;
- the documents of a manifest file.

This project models the plugin's decision logic as pure functions over an
immutable cluster, and proves what that logic promises.

The model has one module per concern:

| file | module | what it holds |
|---|---|---|
| `options.dfy` | `Options` | `Option`, for Go's "value or error" results |
| `text.dfy` | `Text` | Go's `strings.ToLower`, `strings.Split` on a one-character separator, and `strings.Join`, with both round trips of `Split` and `Join` proved |
| `kinds.dfy` | `Kinds` | the seven kinds, their alias groups, and the case-insensitive resolution of a type token (the `switch strings.ToLower(resourceType)`) |
| `workloads.dfy` | `Workloads` | the per-kind spec records, the cluster as a map from (kind, namespace, name) to spec, the field each kind compares and writes, and Go's `int32(x)` conversion |
| `scaling.dfy` | `Scaling` | `ScaleResource` (resolve, read, check the precondition, write) and `ScaleEach`, the fold of it over a list of targets that never stops on an error |
| `fanout.dfy` | `FanOut` | the three fan-out modes: `ScaleFromArgs`, `ScaleAllResourcesWithClientset`, and `ScaleFromFile` after decoding |
| `cli.dfy` | `Cli` | the subcommand table, the flag defaults, the mode precedence, and one whole invocation |
| `scenarios.dfy` | `Scenarios` | the situations of the repository's unit tests, and the reading of manifest documents and positional arguments, as lemmas |

Client calls that can fail on an object that exists are oracles:

- a `Faults` value names the keys whose `Get` or whose `Update` fails;
- a `Lister` gives each (kind, namespace) its listed names, or `None` when listing fails;
- file mode takes the decoded documents, or `None` when the file cannot be opened.

Every per-target result is recorded in an outcome log instead of being printed.

The Go conversion `int32(replicas)` is modelled exactly, as `Workloads.Int32Of`. It keeps the low 32 bits and reads them in two's complement. A target outside the int32 range therefore wraps, as in the source.

Some behaviour of the code is easy to miss; the model keeps it:

- **Unsupported type in all-resources mode.** The type is resolved inside the namespace loop, not before it. The namespace list is never empty, so the error is returned in the first iteration, before any listing.
- **Unsupported type in explicit-names mode.** It is not checked up front. Every target fails on its own with `Unsupported`, and the run still returns success.
- **Non-zero exit status.** Besides setup failures, the code returns an error, and so a non-zero status, for a malformed `kind/name` token and for an unsupported type in all-resources mode. Both are `Err` statuses in the model. Failures of single targets never change the status.
- **Duplicate namespaces.** The namespace list is taken as written, duplicates included, so an object can be visited twice. The second visit sees the value the first one wrote. It either writes the same value again or, when the precondition differs from the target, is refused with a mismatch. Either way the end state is the same as with one visit; only the log gains a line (`Scaling.ScaleEachWithMetPrecondition`).

## Model

| member | source | states |
|---|---|---|
| Text.Split | internal/scale/scale.go:93 | `strings.Split` yields one piece more than there are separators, and no piece contains the separator |
| Text.JoinSplit | internal/scale/scale.go:107 | joining the pieces of a split with the separator gives back the original string: splitting loses nothing |
| Text.SplitJoin | internal/scale/scale.go:107 | splitting a joined, non-empty list of separator-free pieces gives back exactly that list |
| Text.SplitPrefix | internal/scale/scale.go:93 | a separator-free prefix followed by the separator becomes the first piece, and the rest splits on its own |
| Text.SplitFree | internal/scale/scale.go:92-100 | a string without the separator splits into itself alone |
| Text.CountZero | internal/scale/scale.go:92 | `strings.Contains(arg, "/")` is false exactly when `/` occurs zero times |
| Text.LowerIdempotent | internal/scale/scale.go:126 | lower-casing twice is lower-casing once |
| Text.LowerOfUpper | internal/scale/scale.go:126 | upper-casing first does not change the lower-cased form |
| Text.LowerOfLowerAscii | internal/scale/scale.go:127 | a word of lower-case ASCII letters, like every case label, is unchanged by `ToLower` |
| Kinds.KindOf | internal/scale/scale.go:127-241 | the switch maps a lower-cased token to the kind whose alias group contains it, and maps every token outside all seven groups to "unsupported" |
| Kinds.KindOfExactly | internal/scale/scale.go:127-241 | both directions: the switch yields kind k exactly when the token is in k's alias group |
| Kinds.Resolve | internal/scale/scale.go:126-241 | the resolved kind's alias group contains the lower-cased token, and an unresolved token lower-cases to no alias at all |
| Kinds.ResolveExactly | internal/scale/scale.go:126-241 | both directions: a token resolves to k exactly when its lower-cased form is one of k's aliases |
| Kinds.ResolveIgnoresCase | internal/scale/scale.go:126 | upper- and lower-cased spellings of a token resolve like the token itself |
| Kinds.AliasesDisjoint | internal/scale/scale.go:127-223 | no token names two kinds: the seven case lists are disjoint |
| Kinds.AliasesAreLower | internal/scale/scale.go:127-223 | every case label is spelled in lower case, so `ToLower` maps it to itself |
| Kinds.AliasResolves | internal/scale/scale.go:126-223 | every alias, typed exactly as in the table, resolves to its kind |
| Kinds.CanonicalType | internal/scale/scale.go:294 | the type string the all-resources loop passes down is one of its kind's aliases |
| Kinds.CanonicalResolves | internal/scale/scale.go:294-402 | the canonical type string each all-resources branch passes to `ScaleResource` resolves back to that branch's kind |
| Workloads.Int32Of | internal/scale/scale.go:137 | `int32(replicas)` is the identity on values that fit in an int32, and always differs from its argument by a multiple of 2^32 |
| Workloads.Apply | internal/scale/scale.go:137-234 | the write sets the kind's compared field (replicas, parallelism, template parallelism or HPA minimum) to the value, keeps the spec's shape and every field the scaler does not write, and also sets the HPA maximum |
| Workloads.ScaleFieldsDetermineSpec | internal/scale/scale.go:137-234 | two specs that agree on the written fields and on the untouched ones are equal, so `Apply`'s contract fixes its result completely |
| Workloads.ApplyIdempotent | internal/scale/scale.go:137-234 | writing the same value twice equals writing it once |
| Workloads.ApplyObservedIsNoOp | internal/scale/scale.go:229-234 | writing back the observed value changes nothing, unless it is an autoscaler whose range is wider than one point |
| Scaling.KeyFor | internal/scale/scale.go:126-128 | a (token, namespace, name) triple addresses an object exactly when the token resolves, and then it addresses the resolved kind's object |
| Scaling.ScaleResource | internal/scale/scale.go:123-246 | unsupported exactly when the token does not resolve; a failed read exactly when the read of the addressed object fails; not found exactly when the addressed object is absent and its read does not fail; a mismatch exactly when the object exists, its read succeeds and it fails the precondition, reporting the observed and expected values; a failed update exactly when the precondition holds and the write fails; success exactly when the object exists, its read and write succeed and the precondition holds. Nothing is written unless the outcome is success, and no object is created or deleted. On success the addressed object gets `int32(replicas)` in its kind's field (and HPA maximum), its other fields are unchanged, and every other object is unchanged |
| Scaling.HpaRangeCollapses | internal/scale/scale.go:233-234 | a scaled autoscaler ends with minimum = maximum = `int32(replicas)` |
| Scaling.ScaleResourceIdempotent | internal/scale/scale.go:123-246 | repeating a successful call without precondition succeeds again and leaves the cluster unchanged |
| Scaling.ScaleResourceRepeatWithPrecondition | internal/scale/scale.go:133-141 | with the target as the precondition, the repeated call passes the check and changes nothing, for every target that fits in an int32, negative ones included |
| Scaling.ScaleEach | internal/scale/scale.go:111-117 | the fold keeps the set of objects, logs one attempt per target in target order, and leaves alone every object no target addresses and every object whose read or write fails |
| Scaling.ScaleEachAppend | internal/scale/scale.go:111-117 | scaling `a + b` is scaling `a`, then `b` from the resulting cluster; the logs concatenate |
| Scaling.ScaleEachWithoutPrecondition | internal/scale/scale.go:111-117 | without a precondition, every addressed, fault-free object ends at `Apply(int32(replicas))` and every other object is unchanged, whatever the order and repetition of targets |
| Scaling.HitIndex | internal/scale/scale.go:111-117 | an object some target addresses is addressed at a definite position of the list |
| Scaling.ScaleEachFromPartway | internal/scale/scale.go:133-141 | when every object the remaining targets address met the precondition in the starting cluster, and every object is as it was there or already at the target: objects the remaining targets address (without failing client calls) end at the target and every other object stays where it is |
| Scaling.ScaleEachWithMetPrecondition | internal/scale/scale.go:133-135 | when every addressed object meets the precondition, the fan-out ends exactly as without one, even when a target list addresses an object more than once |
| Scaling.ScaleEachIdempotent | internal/scale/scale.go:111-117 | running the same fan-out twice without a precondition leaves the cluster as the first run left it |
| FanOut.ParseToken | internal/scale/scale.go:91-101 | an argument is malformed exactly when it has two or more `/`; without `/` it is the name itself; a parsed name never contains `/` |
| FanOut.ParseTokenDropsPrefix | internal/scale/scale.go:92-97 | `kind/name` yields `name`, whatever the prefix says |
| FanOut.ParseArgs | internal/scale/scale.go:89-102 | all arguments parse exactly when each does, giving one name per argument in order; otherwise the error names the first malformed argument |
| FanOut.ParseArgsFirstInvalid | internal/scale/scale.go:90-101 | the error is the first malformed argument, whatever follows it |
| FanOut.ParseNames | internal/scale/scale.go:89-102 | the argument loop, with its early return, computes `ParseArgs` |
| FanOut.SplitNamespaces | internal/scale/scale.go:105-108 | an empty namespace string gives `["default"]`; otherwise the pieces are comma-free and join back to the string exactly, with no trimming |
| FanOut.SplitNamespacesOfJoin | internal/scale/scale.go:105-108 | a comma-joined list of comma-free namespaces splits back into that list |
| FanOut.Row | internal/scale/scale.go:112-113 | the targets for one namespace, one per name in name order |
| FanOut.Product | internal/scale/scale.go:111-113 | the targets are namespace-major: the pair (i-th namespace, j-th name) sits at position i·|names| + j, and there are |namespaces|·|names| targets |
| FanOut.FlatUnique | internal/scale/scale.go:111-113 | two (namespace, name) pairs with the same position in the product are the same pair |
| FanOut.Unflat | internal/scale/scale.go:111-113 | every position of the product belongs to exactly one (namespace, name) pair |
| FanOut.ProductMisses | internal/scale/scale.go:111-117 | an object of another kind than the type names, or outside the requested namespaces or names, is addressed by no target |
| FanOut.ProductMissesAll | internal/scale/scale.go:111-117 | the same for every object at once |
| FanOut.ScaleProduct | internal/scale/scale.go:111-117 | the nested loops compute the fold over the namespace-major product |
| FanOut.ExplicitNames | internal/scale/scale.go:88-119 | a malformed argument aborts with that argument before anything is written; otherwise the run succeeds, creates or deletes no object, logs one attempt per (namespace, name) pair with the pair for the i-th namespace and j-th name at position i * |names| + j, and leaves every object of another kind, namespace or name unchanged |
| FanOut.ScaleFromArgs | internal/scale/scale.go:88-119 | the method (argument loop, namespace split, nested loops) equals the functional `ExplicitNames` |
| FanOut.NamesModeReachesTarget | internal/scale/scale.go:88-119 | without precondition or faults, for any supported type, an object reaches `int32(replicas)` exactly when it is of that type's kind, in a requested namespace and named; every other object is unchanged |
| FanOut.ScaleAllIn | internal/scale/scale.go:279-410 | the namespace loop fails exactly when there is a namespace and the type does not resolve, and then changes nothing and logs nothing; it creates or deletes no object; apart from attempts its log holds exactly a `ListFailed` for each namespace whose listing fails and a `NoneFound` for each whose listing is empty, in namespace order |
| FanOut.ScaleAllInIsScaleEach | internal/scale/scale.go:279-410 | for a supported type the namespace loop equals the fold over the listed targets: per namespace in order, each listed name under the canonical type, failed or empty listings contributing nothing |
| FanOut.ScaleAllResources | internal/scale/scale.go:271-413 | an error exactly for an unsupported type, and then no change and no log; otherwise success, with the cluster and the attempts of the fold over the listed targets, and with exactly one listing report per namespace whose listing fails or is empty, in namespace order |
| FanOut.FailedListingIsReported | internal/scale/scale.go:282-286 | a namespace whose listing fails is reported and the loop carries on |
| FanOut.EmptyListingIsReported | internal/scale/scale.go:288-291 | a namespace whose listing is empty is reported as having no objects and the loop carries on |
| FanOut.HitsAt | internal/scale/scale.go:293-297 | a target whose type resolves addresses its object |
| FanOut.ListedContains | internal/scale/scale.go:282-297 | every name listed in a requested namespace becomes a target |
| FanOut.HitsConcat | internal/scale/scale.go:279-297 | a concatenation of target lists addresses an object exactly when one of its parts does |
| FanOut.RowAddresses | internal/scale/scale.go:293-297 | the targets of one listed namespace address only objects of the type's kind, in that namespace, under a listed name |
| FanOut.ListedAddresses | internal/scale/scale.go:279-297 | the listed targets address only objects of the listed kind that the listing of a requested namespace names |
| FanOut.AllModeReachesTarget | internal/scale/scale.go:279-297 | without precondition or faults, for any supported type, an object reaches `int32(replicas)` exactly when it is of that type's kind and the listing of a requested namespace names it; every other object is unchanged |
| FanOut.DocTarget | internal/scale/scale.go:58-63 | a document's target has the lower-cased kind, which resolves to the same kind as the document's and has the same length; the document's name; and the document's namespace, or `default` when it has none |
| FanOut.FileTargets | internal/scale/scale.go:47-69 | exactly the documents with a kind become targets, in both directions |
| FanOut.FileTargetsAppend | internal/scale/scale.go:47-69 | documents are handled independently and in order |
| FanOut.ScaleFromFile | internal/scale/scale.go:40-71 | an error exactly when the file cannot be opened, and then no change; otherwise success with the cluster and log of the fold over the documents' targets, every document using the same `--replicas` and `--current-replicas`: one attempt per document that has a kind, on that document's target and in document order, objects kept, and unaddressed objects unchanged |
| FanOut.FileModeReachesTarget | internal/scale/scale.go:40-71 | without precondition or faults, file mode succeeds and an object reaches `int32(replicas)` exactly when some document with a kind names it (its kind resolving to the object's kind, same name, same namespace or `default` when the document has none); every other object is unchanged |
| Cli.FindCommand | cmd/root.go:55-58 | a word invokes a subcommand exactly when it is that subcommand's name or one of its aliases |
| Cli.CommandsAgreeWithResolver | cmd/root.go:44-51 | every subcommand passes a type the scaler resolves, and its name and aliases all lie in that kind's alias group |
| Cli.InvokingWordResolves | cmd/root.go:55-58 | the word that invoked a subcommand resolves to the same kind as the type the subcommand passes |
| Cli.DefaultPreconditionNeverRefuses | cmd/root.go:78 | with the default `--current-replicas` of -1, no object is refused for a precondition mismatch |
| Cli.SelectMode | cmd/root.go:61-71 | both directions for each mode: a file name selects file mode; otherwise `--all` or no arguments selects all-resources mode; otherwise explicit names |
| Cli.Execute | cmd/root.go:61-80 | an invocation is rejected exactly when the word is no subcommand or `--replicas` is missing; otherwise the selected mode runs: file mode on the named file's documents, all-resources or explicit-names mode with the subcommand's type and the namespace flag, each with `--replicas` and `--current-replicas` |
| Cli.FileModeIgnoresNamesAndNamespaces | cmd/root.go:62-64 | in file mode the arguments, the namespace list, `--all` and the subcommand used do not change the result |
| Cli.AllFlagIgnoresNames | cmd/root.go:66-69 | with `--all` the arguments do not change the result |
| Cli.ExecuteKeepsObjects | cmd/root.go:61-71 | no mode creates or deletes an object |
| Scenarios.ScaleWithMetPrecondition | internal/scale/scale_test.go:15-51 | a deployment at 3 scaled to 5 under precondition 3 ends at 5 |
| Scenarios.ScaleWithMissedPrecondition | internal/scale/scale_test.go:53-79 | under precondition 2 the same call reports a mismatch (3 observed, 2 expected) and writes nothing |
| Scenarios.ScaleMissingObject | internal/scale/scale_test.go:81-90 | scaling an absent deployment reports it missing and writes nothing |
| Scenarios.ScaleAcrossNamespaces | internal/scale/scale_test.go:92-166 | all-resources mode over "default,staging,production", each holding one deployment at 2, with target 4 and precondition 2, succeeds and leaves all three at 4 |
| Scenarios.ManifestTargets | internal/scale/scale.go:53-63 | documents "Deployment"/"ns-a" and "StatefulSet"/no namespace become targets "deployment" in "ns-a" and "statefulset" in "default"; a document without a kind is skipped |
| Scenarios.WellFormedArguments | internal/scale/scale.go:89-102 | `kind/name` followed by a bare name parses to the two names |
| Scenarios.MalformedArgument | internal/scale/scale.go:92-96 | a token with two slashes is the reported error, even when a later token is also malformed |

## Left out

- Kubeconfig resolution from `KUBECONFIG` and `HOME`, and client construction, are environment and I/O, outside the decision logic.
- Opening the manifest file and the YAML/JSON decoder are left out. File mode takes the decoded documents, so a decode error is simply the end of that sequence, and `None` stands for a file that cannot be opened.
- The Kubernetes API transport is replaced by the immutable cluster map, the `Faults` oracles and the `Lister`. Authentication and the error texts are left out.
- The `fmt.Printf` progress and error lines become the outcome log, in print order. Intent and success lines and the text are not modelled.
- Objects whose `Spec.Replicas`, `Parallelism` or `MinReplicas` pointer is nil are left out: every spec field is present. The source would dereference nil there.
- The read-check-write sequence has no compare-and-swap in the source. Interleaving with other cluster writers is concurrency, outside this sequential model.
- Cobra wiring is reduced to `Cli.Execute`: global flag variables, help text and the mechanics of `MarkFlagRequired`. A missing `--replicas` is the `MissingReplicas` rejection, and an unknown subcommand word is `UnknownCommand`. Cobra's prefix matching and suggestions are left out.
- Go's `strings.ToLower` is modelled only on the runes whose lower-case form is ASCII: A–Z, U+0130 and U+212A. Other non-ASCII runes are left as they are. Go maps some of them to other non-ASCII runes, which never changes whether a token matches an alias.
- Only one untouched field per spec family is modelled (selector, completions, schedule, CPU target). It stands for all the fields the scaler must not write.
- `Faults` names the keys whose read or write fails, and a key keeps failing for the whole run. In the source a `Get` or `Update` can fail once and succeed on a later visit of the same object, as happens with a repeated namespace (`-n a,a`) or a repeated name (`web web`). So `Scaling.ScaleEach`'s promise that a faulty object is left alone, and the end state of `Scaling.EndsAsExpected`, rest on faults that persist; transient failures are not modelled.
- FanOut.ScaleAllResources: its contract pins the attempts and the listing reports of the log each in order, but not how the two interleave. The body logs each namespace's report or attempts before the next namespace's.
- Text.Lower: its own contract states only the length. Its meaning is carried by the lemmas `LowerIdempotent`, `LowerOfUpper` and `LowerOfLowerAscii`, and by `Resolve`'s contract.

=== FILE: cli.dfy ===
/** The command layer: the seven subcommands with their aliases, the flag
    defaults, and the choice of fan-out mode made by each subcommand. */
module Cli {
  import opened Options
  import opened Kinds
  import opened Workloads
  import opened Scaling
  import opened FanOut

  /** One subcommand: the word that invokes it, the resource type it passes
      down, and its aliases. */
  datatype Command = Command(use: string, resourceType: string, aliases: seq<string>)

  const Commands: seq<Command> := [
    Command("deployment", "deployment", ["deploy", "deployments"]),
    Command("statefulset", "statefulset", ["sts", "statefulsets"]),
    Command("replicaset", "replicaset", ["rs", "replicasets"]),
    Command("replicationcontroller", "replicationcontroller", ["rc", "replicationcontrollers"]),
    Command("job", "job", ["jobs"]),
    Command("cronjob", "cronjob", ["cj", "cronjobs"]),
    Command("horizontalpodautoscaler", "horizontalpodautoscaler", ["hpa", "horizontalpodautoscalers"])
  ]

  /** The words that invoke a subcommand (matched exactly, case-sensitively). */
  predicate Invokes(cmd: Command, word: string) {
    word == cmd.use || word in cmd.aliases
  }

  /** The subcommand a word invokes, if any. */
  function FindCommand(word: string): (r: Option<Command>)
    ensures r.Some? ==> r.value in Commands && Invokes(r.value, word)
    ensures r.None? ==> forall i :: 0 <= i < |Commands| ==> !Invokes(Commands[i], word)
  {
    FindIn(Commands, word)
  }

  function FindIn(cmds: seq<Command>, word: string): (r: Option<Command>)
    ensures r.Some? ==> r.value in cmds && Invokes(r.value, word)
    ensures r.None? ==> forall i :: 0 <= i < |cmds| ==> !Invokes(cmds[i], word)
  {
    if cmds == [] then None
    else if Invokes(cmds[0], word) then Some(cmds[0])
    else FindIn(cmds[1..], word)
  }

  /** Every subcommand passes a resource type the scaler resolves, and
      every word that invokes it is in the alias group of that same kind. */
  lemma CommandsAgreeWithResolver(i: nat)
    requires i < |Commands|
    ensures var cmd := Commands[i];
      && Resolve(cmd.resourceType).Some?
      && cmd.use in Aliases(Resolve(cmd.resourceType).value)
      && forall a :: a in cmd.aliases ==> a in Aliases(Resolve(cmd.resourceType).value)
  {
    var k := [Deployment, StatefulSet, ReplicaSet, ReplicationController, Job, CronJob, HorizontalPodAutoscaler][i];
    assert Commands[i].resourceType == CanonicalType(k);
    CanonicalResolves(k);
  }

  /** So the word typed on the command line itself resolves to the kind
      the subcommand scales. */
  lemma InvokingWordResolves(word: string)
    ensures FindCommand(word).Some? ==>
      && Resolve(word).Some?
      && Resolve(word) == Resolve(FindCommand(word).value.resourceType)
  {
    if FindCommand(word).Some? {
      var cmd := FindCommand(word).value;
      var i :| 0 <= i < |Commands| && Commands[i] == cmd;
      CommandsAgreeWithResolver(i);
      AliasResolves(Resolve(cmd.resourceType).value, word);
    }
  }

  /** The flags of a subcommand. `replicas` is None when `--replicas` was
      not given. */
  datatype Flags = Flags(replicas: Option<int>, namespaces: string, filename: string,
                         currentReplicas: int, all: bool)

  /** The flag values before the command line is read. */
  const DefaultFlags: Flags := Flags(None, "", "", NoPrecondition, false)

  /** With the default `--current-replicas` no object is ever refused for a
      precondition mismatch. */
  lemma DefaultPreconditionNeverRefuses(c: Cluster, f: Faults, token: string, name: string,
                                        namespace: string, replicas: int)
    ensures !ScaleResource(c, f, token, name, namespace, replicas, DefaultFlags.currentReplicas).outcome.Mismatch?
  {
  }

  datatype Mode = FileMode | AllMode | NamesMode

  /** The mode precedence: a file name wins; then `--all` or no positional
      arguments select all-resources mode; otherwise the named objects. */
  function SelectMode(flags: Flags, args: seq<string>): (m: Mode)
    ensures m == FileMode <==> flags.filename != ""
    ensures m == AllMode <==> flags.filename == "" && (flags.all || args == [])
    ensures m == NamesMode <==> flags.filename == "" && !flags.all && args != []
  {
    if flags.filename != "" then FileMode
    else if flags.all || |args| == 0 then AllMode
    else NamesMode
  }

  /** Everything the command sees of the outside world: client faults, the
      listing call, and the documents decoded from each file name (None
      when the file cannot be opened). */
  datatype World = World(faults: Faults, list: Lister, files: string -> Option<seq<Doc>>)

  datatype CommandError = UnknownCommand(word: string) | MissingReplicas

  /** The exit of one invocation: rejected before any scaling, or one
      fan-out run. */
  datatype Exit = Rejected(error: CommandError) | Completed(mode: Mode, run: Run)

  /** One invocation: find the subcommand, insist on `--replicas`, select
      the mode and run exactly that fan-out. */
  function Execute(c: Cluster, w: World, word: string, flags: Flags, args: seq<string>): (r: Exit)
    ensures r.Rejected? <==> FindCommand(word).None? || flags.replicas.None?
    ensures r.Rejected? ==> (r.error == MissingReplicas <==> FindCommand(word).Some?)
    ensures r.Completed? ==> r.mode == SelectMode(flags, args)
    ensures r.Completed? && r.mode == FileMode ==>
      r.run == ScaleFromFile(c, w.faults, w.files(flags.filename), flags.replicas.value, flags.currentReplicas)
    ensures r.Completed? && r.mode == AllMode ==>
      r.run == ScaleAllResources(c, w.faults, w.list, FindCommand(word).value.resourceType, flags.namespaces,
                                 flags.replicas.value, flags.currentReplicas)
    ensures r.Completed? && r.mode == NamesMode ==>
      r.run == ExplicitNames(c, w.faults, args, FindCommand(word).value.resourceType, flags.namespaces,
                             flags.replicas.value, flags.currentReplicas)
  {
    match FindCommand(word)
    case None => Rejected(UnknownCommand(word))
    case Some(cmd) =>
      match flags.replicas
      case None => Rejected(MissingReplicas)
      case Some(n) =>
        var pre := flags.currentReplicas;
        var mode := SelectMode(flags, args);
        match mode
        case FileMode => Completed(mode, ScaleFromFile(c, w.faults, w.files(flags.filename), n, pre))
        case AllMode => Completed(mode, ScaleAllResources(c, w.faults, w.list, cmd.resourceType, flags.namespaces, n, pre))
        case NamesMode => Completed(mode, ExplicitNames(c, w.faults, args, cmd.resourceType, flags.namespaces, n, pre))
  }

  /** In file mode the positional arguments, the namespace list, `--all`
      and even the subcommand's own type are ignored: the manifest names
      every object. */
  lemma FileModeIgnoresNamesAndNamespaces(c: Cluster, w: World, word: string, word': string,
                                          flags: Flags, args: seq<string>, args': seq<string>,
                                          namespaces': string, all': bool)
    requires flags.filename != ""
    ensures FindCommand(word).Some? && FindCommand(word').Some? ==>
      Execute(c, w, word, flags, args) == Execute(c, w, word', flags.(namespaces := namespaces', all := all'), args')
  {
  }

  /** With `--all` the positional arguments are ignored. */
  lemma AllFlagIgnoresNames(c: Cluster, w: World, word: string, flags: Flags,
                            args: seq<string>, args': seq<string>)
    requires flags.filename == "" && flags.all
    ensures Execute(c, w, word, flags, args) == Execute(c, w, word, flags, args')
  {
  }

  /** A run of any mode only rewrites existing objects: it never creates or
      deletes one. */
  lemma ExecuteKeepsObjects(c: Cluster, w: World, word: string, flags: Flags, args: seq<string>)
    ensures Execute(c, w, word, flags, args).Completed? ==> Execute(c, w, word, flags, args).run.cluster.Keys == c.Keys
  {
  }
}

=== FILE: fanout.dfy ===
/** The three fan-out modes: explicit names across namespaces
    (`ScaleFromArgs`), every listed object of a kind across namespaces
    (`ScaleAllResourcesWithClientset`) and the documents of a manifest file
    (`ScaleFromFile`). Each reduces to `ScaleEach` over a target list. */
module FanOut {
  import opened Options
  import opened Text
  import opened Kinds
  import opened Workloads
  import opened Scaling

  const DefaultNamespace: string := "default"

  /** Why a fan-out returned an error of its own (per-target errors are
      only logged). */
  datatype Failure =
    | InvalidFormat(arg: string)
    | UnsupportedType(token: string)
    | FileOpenFailed

  datatype Status = Ok | Err(failure: Failure)

  /** What a fan-out leaves behind: the cluster, the outcome log in the
      order the source prints it, and the returned error, if any. */
  datatype Run = Run(cluster: Cluster, log: seq<Report>, status: Status)

  // ---------------------------------------------------------------------
  // Argument tokens and namespace lists

  /** One positional argument: a bare name is taken as it is; a `kind/name`
      token contributes only its name (the kind prefix is ignored); a token
      with two or more slashes is malformed. */
  function ParseToken(arg: string): (r: Option<string>)
    ensures r.None? <==> Count(arg, '/') >= 2
    ensures '/' !in arg ==> r == Some(arg)
    ensures r.Some? ==> '/' !in r.value
  {
    CountZero(arg, '/');
    if '/' in arg then
      var parts := Split(arg, '/');
      if |parts| != 2 then None else Some(parts[1])
    else Some(arg)
  }

  /** The prefix of a `kind/name` token is ignored whatever it says. */
  lemma ParseTokenDropsPrefix(prefix: string, name: string)
    requires '/' !in prefix && '/' !in name
    ensures ParseToken(prefix + "/" + name) == Some(name)
  {
    SplitPrefix(prefix, name, '/');
    SplitFree(name, '/');
    assert prefix + "/" + name == prefix + ['/'] + name;
  }

  datatype Parsed = Names(names: seq<string>) | Invalid(arg: string)

  /** All positional arguments, in order; the first malformed one, if any,
      is the error. */
  function ParseArgs(args: seq<string>): (r: Parsed)
    ensures r.Names? <==> forall i :: 0 <= i < |args| ==> ParseToken(args[i]).Some?
    ensures r.Names? ==>
      && |r.names| == |args|
      && forall i :: 0 <= i < |args| ==> ParseToken(args[i]) == Some(r.names[i])
    ensures r.Invalid? ==>
      exists i :: && 0 <= i < |args| && args[i] == r.arg && ParseToken(args[i]).None?
                  && forall j :: 0 <= j < i ==> ParseToken(args[j]).Some?
  {
    if args == [] then Names([])
    else
      var init := args[..|args| - 1];
      var last := args[|args| - 1];
      assert forall i :: 0 <= i < |init| ==> init[i] == args[i];
      match ParseArgs(init)
      case Invalid(a) => Invalid(a)
      case Names(ns) =>
        match ParseToken(last)
        case None => Invalid(last)
        case Some(n) => Names(ns + [n])
  }

  /** The error names the first malformed argument, whatever follows it. */
  lemma ParseArgsFirstInvalid(args: seq<string>, i: nat)
    requires i < |args| && ParseToken(args[i]).None?
    requires forall j :: 0 <= j < i ==> ParseToken(args[j]).Some?
    ensures ParseArgs(args) == Invalid(args[i])
  {
    var r := ParseArgs(args);
    var k :| && 0 <= k < |args| && args[k] == r.arg && ParseToken(args[k]).None?
             && forall j :: 0 <= j < k ==> ParseToken(args[j]).Some?;
    assert k == i;
  }

  /** The namespace list: `default` when none is given, otherwise the
      comma-separated pieces exactly as written (no trimming, empty pieces
      kept), which join back to the given string. */
  function SplitNamespaces(namespaces: string): (r: seq<string>)
    ensures |r| >= 1
    ensures namespaces == "" ==> r == [DefaultNamespace]
    ensures namespaces != "" ==> Join(r, ',') == namespaces
    ensures forall i :: 0 <= i < |r| ==> ',' !in r[i]
  {
    if namespaces == "" then [DefaultNamespace]
    else
      JoinSplit(namespaces, ',');
      Split(namespaces, ',')
  }

  /** A comma-joined list of comma-free, non-empty-string namespaces is
      split back into exactly that list. */
  lemma SplitNamespacesOfJoin(nss: seq<string>)
    requires nss != [] && Join(nss, ',') != ""
    requires forall i :: 0 <= i < |nss| ==> ',' !in nss[i]
    ensures SplitNamespaces(Join(nss, ',')) == nss
  {
    SplitJoin(nss, ',');
  }

  // ---------------------------------------------------------------------
  // Explicit-names mode

  /** The targets for one namespace, in name order. */
  function Row(token: string, namespace: string, names: seq<string>): (r: seq<Target>)
    ensures |r| == |names|
    ensures forall j :: 0 <= j < |names| ==> r[j] == Target(token, namespace, names[j])
  {
    if names == [] then []
    else Row(token, namespace, names[..|names| - 1]) + [Target(token, namespace, names[|names| - 1])]
  }

  /** Position of the pair (i, j) in a namespace-major enumeration of rows
      of the given width. */
  function Flat(i: nat, j: nat, width: nat): nat {
    i * width + j
  }

  lemma MulSucc(n: nat, m: nat)
    ensures (n + 1) * m == n * m + m
  {
  }

  /** Two pairs with columns below the width have the same flat position
      only if they are the same pair. */
  lemma FlatUnique(q: nat, j: nat, q2: nat, j2: nat, w: nat)
    requires j < w && j2 < w && Flat(q, j, w) == Flat(q2, j2, w)
    ensures q == q2 && j == j2
  {
    if q < q2 {
      FlatBound(q, j, q2, w);
    } else if q2 < q {
      FlatBound(q2, j2, q, w);
    }
  }

  /** Every position below h rows of width w is the flat position of
      exactly one pair (row, column). */
  lemma Unflat(n: nat, w: nat, h: nat) returns (q: nat, j: nat)
    requires n < h * w
    ensures q < h && j < w && Flat(q, j, w) == n
    ensures forall q2: nat, j2: nat :: j2 < w && Flat(q2, j2, w) == n ==> q2 == q && j2 == j
  {
    assert w != 0;
    q := n / w;
    j := n % w;
    forall q2: nat, j2: nat | j2 < w && Flat(q2, j2, w) == n
      ensures q2 == q && j2 == j
    {
      FlatUnique(q, j, q2, j2, w);
    }
  }

  /** Row i of width m ends before row n when i < n. */
  lemma FlatBound(i: nat, j: nat, n: nat, m: nat)
    requires i < n && j < m
    ensures Flat(i, j, m) < n * m
  {
    MulSucc(i, m);
    assert (i + 1) * m <= n * m by {
      var d := n - (i + 1);
      assert n * m == (i + 1) * m + d * m;
    }
  }

  /** The cartesian product of namespaces and names, namespace-major: the
      target for the i-th namespace and j-th name sits at position
      i * |names| + j. */
  function Product(token: string, nss: seq<string>, names: seq<string>): (r: seq<Target>)
    ensures |r| == |nss| * |names|
    ensures forall i, j :: 0 <= i < |nss| && 0 <= j < |names| ==>
      Flat(i, j, |names|) < |r| && r[Flat(i, j, |names|)] == Target(token, nss[i], names[j])
  {
    if nss == [] then []
    else
      var init := nss[..|nss| - 1];
      var p := Product(token, init, names);
      var r := p + Row(token, nss[|nss| - 1], names);
      MulSucc(|init|, |names|);
      forall i, j | 0 <= i < |nss| && 0 <= j < |names|
        ensures Flat(i, j, |names|) < |r| && r[Flat(i, j, |names|)] == Target(token, nss[i], names[j])
      {
        if i < |init| {
          FlatBound(i, j, |init|, |names|);
          assert nss[i] == init[i];
          assert r[Flat(i, j, |names|)] == p[Flat(i, j, |names|)];
        } else {
          assert i == |init|;
          assert Flat(i, j, |names|) == |p| + j;
          assert r[|p| + j] == Row(token, nss[|nss| - 1], names)[j];
        }
      }
      r
  }

  /** Explicit-names mode as a fold: parse every argument first (a
      malformed one aborts before anything is scaled), then scale the
      namespace-major product, returning success whatever the per-target
      outcomes. */
  function ExplicitNames(c: Cluster, f: Faults, args: seq<string>, resourceType: string,
                         namespaces: string, replicas: int, pre: int): (r: Run)
    ensures ParseArgs(args).Invalid? <==> r.status.Err?
    ensures r.status.Err? ==> r.cluster == c && r.log == [] && r.status.failure == InvalidFormat(ParseArgs(args).arg)
    ensures r.status.Ok? ==>
      var nss := SplitNamespaces(namespaces);
      var names := ParseArgs(args).names;
      && r.cluster.Keys == c.Keys
      && |r.log| == |nss| * |args|
      && (forall i, j :: 0 <= i < |nss| && 0 <= j < |args| ==>
            && Flat(i, j, |args|) < |r.log|
            && r.log[Flat(i, j, |args|)].Attempt?
            && r.log[Flat(i, j, |args|)].target == Target(resourceType, nss[i], names[j]))
      && (forall key :: key in c && (Resolve(resourceType) != Some(key.kind) || key.namespace !in nss || key.name !in names)
            ==> r.cluster[key] == c[key])
  {
    match ParseArgs(args)
    case Invalid(a) => Run(c, [], Err(InvalidFormat(a)))
    case Names(names) =>
      var nss := SplitNamespaces(namespaces);
      ProductMissesAll(resourceType, nss, names);
      var b := ScaleEach(c, f, Product(resourceType, nss, names), replicas, pre);
      Run(b.cluster, b.log, Ok)
  }

  /** Without a precondition and without client faults, a well-formed
      command line brings every named object of the requested type in
      every requested namespace to `int32(replicas)`, and leaves every
      other object as it was. */
  lemma NamesModeReachesTarget(c: Cluster, args: seq<string>, resourceType: string, namespaces: string,
                               replicas: int, key: Key)
    requires Resolve(resourceType).Some? && key in c
    requires ParseArgs(args).Names?
    ensures var r := ExplicitNames(c, NoFaults, args, resourceType, namespaces, replicas, NoPrecondition);
      var nss := SplitNamespaces(namespaces);
      var names := ParseArgs(args).names;
      && r.status == Ok
      && r.cluster[key]
         == if key.kind == Resolve(resourceType).value && key.namespace in nss && key.name in names
            then Apply(key.kind, c[key], Int32Of(replicas))
            else c[key]
  {
    var nss := SplitNamespaces(namespaces);
    var names := ParseArgs(args).names;
    var ts := Product(resourceType, nss, names);
    ScaleEachWithoutPrecondition(c, NoFaults, ts, replicas);
    if key.kind == Resolve(resourceType).value && key.namespace in nss && key.name in names {
      var i :| 0 <= i < |nss| && nss[i] == key.namespace;
      var j :| 0 <= j < |names| && names[j] == key.name;
      HitsAt(ts, Flat(i, j, |names|));
    } else {
      ProductMisses(resourceType, nss, names, key);
    }
  }

  /** An object of another kind than the type names, or outside the
      requested namespaces or names, is hit by no target of the product. */
  lemma ProductMisses(token: string, nss: seq<string>, names: seq<string>, key: Key)
    requires Resolve(token) != Some(key.kind) || key.namespace !in nss || key.name !in names
    ensures !Hits(Product(token, nss, names), key)
  {
    var ts := Product(token, nss, names);
    if Hits(ts, key) {
      var n := HitIndex(ts, key);
      var q, j := Unflat(n, |names|, |nss|);
    }
  }

  /** The same, for every object at once. */
  lemma ProductMissesAll(token: string, nss: seq<string>, names: seq<string>)
    ensures forall key: Key :: (Resolve(token) != Some(key.kind) || key.namespace !in nss || key.name !in names)
                          ==> !Hits(Product(token, nss, names), key)
  {
    forall key: Key | Resolve(token) != Some(key.kind) || key.namespace !in nss || key.name !in names
      ensures !Hits(Product(token, nss, names), key)
    {
      ProductMisses(token, nss, names, key);
    }
  }

  /** The argument loop of `ScaleFromArgs`: names are collected one by one
      and the first malformed token ends the loop with an error. */
  method ParseNames(args: seq<string>) returns (p: Parsed)
    ensures p == ParseArgs(args)
  {
    var names: seq<string> := [];
    var i := 0;
    while i < |args|
      invariant 0 <= i <= |args|
      invariant ParseArgs(args[..i]) == Names(names)
    {
      var arg := args[i];
      assert args[..i + 1][..i] == args[..i];
      if '/' in arg {
        var parts := Split(arg, '/');
        if |parts| != 2 {
          assert ParseToken(arg).None?;
          assert forall j :: 0 <= j < i ==> ParseToken(args[j]).Some? by {
            forall j | 0 <= j < i ensures ParseToken(args[j]).Some? {
              assert args[..i][j] == args[j];
            }
          }
          ParseArgsFirstInvalid(args, i);
          return Invalid(arg);
        }
        names := names + [parts[1]];
      } else {
        names := names + [arg];
      }
      i := i + 1;
    }
    assert args[..i] == args;
    p := Names(names);
  }

  /** The nested scaling loops of `ScaleFromArgs`, namespace outermost: they
      compute exactly the fold over the namespace-major product. */
  method ScaleProduct(c: Cluster, f: Faults, resourceType: string, nsList: seq<string>,
                      names: seq<string>, replicas: int, pre: int) returns (b: Batch)
    ensures var e := ScaleEach(c, f, Product(resourceType, nsList, names), replicas, pre);
      b.cluster == e.cluster && b.log == e.log
  {
    var cur := c;
    var log: seq<Report> := [];
    var a := 0;
    while a < |nsList|
      invariant 0 <= a <= |nsList|
      invariant var e := ScaleEach(c, f, Product(resourceType, nsList[..a], names), replicas, pre);
        e.cluster == cur && e.log == log
    {
      var ns := nsList[a];
      var done := Product(resourceType, nsList[..a], names);
      var k := 0;
      assert names[..0] == [] && done + Row(resourceType, ns, []) == done;
      while k < |names|
        invariant 0 <= k <= |names|
        invariant var e := ScaleEach(c, f, done + Row(resourceType, ns, names[..k]), replicas, pre);
          e.cluster == cur && e.log == log
      {
        var t := Target(resourceType, ns, names[k]);
        var s := ScaleResource(cur, f, resourceType, names[k], ns, replicas, pre);
        ExtendByOne(c, f, done, Row(resourceType, ns, names[..k]), t, replicas, pre);
        RowStep(resourceType, ns, names, k);
        ConcatAssoc(done, Row(resourceType, ns, names[..k]), [t]);
        cur := s.cluster;
        log := log + [Attempt(t, s.outcome)];
        k := k + 1;
      }
      assert names[..k] == names;
      ProductStep(resourceType, nsList, names, a);
      a := a + 1;
    }
    assert nsList[..a] == nsList;
    b := Batch(cur, log);
  }

  /** Scaling one more target extends the fold by that target's call. */
  lemma ExtendByOne(c: Cluster, f: Faults, done: seq<Target>, row: seq<Target>, t: Target,
                    replicas: int, pre: int)
    ensures var e := ScaleEach(c, f, done + row, replicas, pre);
      var s := ScaleResource(e.cluster, f, t.token, t.name, t.namespace, replicas, pre);
      var e' := ScaleEach(c, f, done + row + [t], replicas, pre);
      e'.cluster == s.cluster && e'.log == e.log + [Attempt(t, s.outcome)]
  {
    ScaleEachAppend(c, f, done + row, [t], replicas, pre);
  }

  lemma ProductStep(token: string, nss: seq<string>, names: seq<string>, a: nat)
    requires a < |nss|
    ensures Product(token, nss[..a + 1], names) == Product(token, nss[..a], names) + Row(token, nss[a], names)
  {
    assert nss[..a + 1][..a] == nss[..a];
  }

  lemma RowStep(token: string, ns: string, names: seq<string>, k: nat)
    requires k < |names|
    ensures Row(token, ns, names[..k + 1]) == Row(token, ns, names[..k]) + [Target(token, ns, names[k])]
  {
    assert names[..k + 1][..k] == names[..k];
  }

  /** `ScaleFromArgs`: parse the arguments, split the namespaces, scale. It
      computes exactly the fold `ExplicitNames`. */
  method ScaleFromArgs(c: Cluster, f: Faults, args: seq<string>, resourceType: string,
                       namespaces: string, replicas: int, pre: int) returns (r: Run)
    ensures r == ExplicitNames(c, f, args, resourceType, namespaces, replicas, pre)
  {
    var parsed := ParseNames(args);
    if parsed.Invalid? {
      return Run(c, [], Err(InvalidFormat(parsed.arg)));
    }
    var b := ScaleProduct(c, f, resourceType, SplitNamespaces(namespaces), parsed.names, replicas, pre);
    r := Run(b.cluster, b.log, Ok);
  }

  // ---------------------------------------------------------------------
  // All-resources mode

  /** The listing call for a kind in a namespace: the names of the listed
      objects in listing order, or None when listing fails. */
  type Lister = (Kind, string) -> Option<seq<string>>

  /** The targets the all-resources loop scales: per namespace, in
      namespace order, every listed name under the kind's canonical type
      string; a failed listing contributes nothing. */
  function Listed(k: Kind, list: Lister, nss: seq<string>): seq<Target> {
    if nss == [] then []
    else
      (match list(k, nss[0])
       case None => []
       case Some(names) => Row(CanonicalType(k), nss[0], names))
      + Listed(k, list, nss[1..])
  }

  /** The listing reports the all-resources loop owes, one per namespace
      whose listing fails or is empty, in namespace order. */
  function Reports(k: Kind, list: Lister, nss: seq<string>): seq<Report> {
    if nss == [] then []
    else
      (match list(k, nss[0])
       case None => [ListFailed(k, nss[0])]
       case Some(names) => if names == [] then [NoneFound(k, nss[0])] else [])
      + Reports(k, list, nss[1..])
  }

  /** The loop of `ScaleAllResourcesWithClientset` over the namespaces
      `nss`. The type token is resolved afresh in each iteration, as in the
      source; a failed or empty listing is logged and skips the namespace.
      Apart from the attempts, the log holds exactly the listing reports. */
  function ScaleAllIn(c: Cluster, f: Faults, list: Lister, token: string, nss: seq<string>,
                      replicas: int, pre: int): (r: Run)
    ensures r.status.Err? <==> nss != [] && Resolve(token).None?
    ensures r.status.Err? ==> r == Run(c, [], Err(UnsupportedType(token)))
    ensures r.cluster.Keys == c.Keys
    ensures r.status.Ok? && nss != [] ==> NonAttempts(r.log) == Reports(Resolve(token).value, list, nss)
  {
    if nss == [] then Run(c, [], Ok)
    else
      match Resolve(token)
      case None => Run(c, [], Err(UnsupportedType(token)))
      case Some(k) =>
        var ns := nss[0];
        var here :=
          match list(k, ns)
          case None => Batch(c, [ListFailed(k, ns)])
          case Some(names) =>
            if names == [] then Batch(c, [NoneFound(k, ns)])
            else ScaleEach(c, f, Row(CanonicalType(k), ns, names), replicas, pre);
        var rest := ScaleAllIn(here.cluster, f, list, token, nss[1..], replicas, pre);
        NonAttemptsAppend(here.log, rest.log);
        assert NonAttempts(here.log)
            == (match list(k, ns)
                case None => [ListFailed(k, ns)]
                case Some(names) => if names == [] then [NoneFound(k, ns)] else []) by {
          if list(k, ns).Some? && list(k, ns).value != [] {
            NonAttemptsOfAttempts(here.log);
          }
        }
        Run(rest.cluster, here.log + rest.log, rest.status)
  }

  /** The attempts of a log, without the listing reports. */
  function Attempts(log: seq<Report>): (r: seq<Report>)
    ensures forall i :: 0 <= i < |r| ==> r[i].Attempt?
  {
    if log == [] then []
    else (if log[0].Attempt? then [log[0]] else []) + Attempts(log[1..])
  }

  lemma {:induction false} AttemptsAppend(a: seq<Report>, b: seq<Report>)
    ensures Attempts(a + b) == Attempts(a) + Attempts(b)
  {
    if a != [] {
      assert (a + b)[0] == a[0];
      assert (a + b)[1..] == a[1..] + b;
      AttemptsAppend(a[1..], b);
      ConcatAssoc(if a[0].Attempt? then [a[0]] else [], Attempts(a[1..]), Attempts(b));
    } else {
      assert a + b == b;
    }
  }

  /** The listing reports of a log, without the attempts. */
  function NonAttempts(log: seq<Report>): (r: seq<Report>)
    ensures forall i :: 0 <= i < |r| ==> !r[i].Attempt?
  {
    if log == [] then []
    else (if log[0].Attempt? then [] else [log[0]]) + NonAttempts(log[1..])
  }

  lemma {:induction false} NonAttemptsAppend(a: seq<Report>, b: seq<Report>)
    ensures NonAttempts(a + b) == NonAttempts(a) + NonAttempts(b)
  {
    if a != [] {
      assert (a + b)[0] == a[0];
      assert (a + b)[1..] == a[1..] + b;
      NonAttemptsAppend(a[1..], b);
      ConcatAssoc(if a[0].Attempt? then [] else [a[0]], NonAttempts(a[1..]), NonAttempts(b));
    } else {
      assert a + b == b;
    }
  }

  lemma {:induction false} NonAttemptsOfAttempts(log: seq<Report>)
    requires forall i :: 0 <= i < |log| ==> log[i].Attempt?
    ensures NonAttempts(log) == []
  {
    if log != [] {
      NonAttemptsOfAttempts(log[1..]);
    }
  }

  lemma {:induction false} AttemptsOfAttempts(log: seq<Report>)
    requires forall i :: 0 <= i < |log| ==> log[i].Attempt?
    ensures Attempts(log) == log
  {
    if log != [] {
      AttemptsOfAttempts(log[1..]);
    }
  }

  /** For a supported type, the all-resources loop leaves the cluster and
      logs the attempts exactly as scaling the listed targets in order
      would; for an unsupported one it returns the error without touching
      anything. */
  lemma {:induction false} ScaleAllInIsScaleEach(c: Cluster, f: Faults, list: Lister, token: string,
                                                 nss: seq<string>, replicas: int, pre: int)
    requires Resolve(token).Some?
    ensures var r := ScaleAllIn(c, f, list, token, nss, replicas, pre);
      var b := ScaleEach(c, f, Listed(Resolve(token).value, list, nss), replicas, pre);
      && r.status == Ok
      && r.cluster == b.cluster
      && Attempts(r.log) == b.log
  {
    var k := Resolve(token).value;
    if nss != [] {
      var ns := nss[0];
      var row := match list(k, ns) case None => [] case Some(names) => Row(CanonicalType(k), ns, names);
      var here :=
        match list(k, ns)
        case None => Batch(c, [ListFailed(k, ns)])
        case Some(names) =>
          if names == [] then Batch(c, [NoneFound(k, ns)])
          else ScaleEach(c, f, Row(CanonicalType(k), ns, names), replicas, pre);
      var first := ScaleEach(c, f, row, replicas, pre);
      assert here.cluster == first.cluster;
      assert Attempts(here.log) == first.log by {
        if list(k, ns).Some? && list(k, ns).value != [] {
          AttemptsOfAttempts(here.log);
        }
      }
      ScaleAllInIsScaleEach(here.cluster, f, list, token, nss[1..], replicas, pre);
      ScaleEachAppend(c, f, row, Listed(k, list, nss[1..]), replicas, pre);
      var rest := ScaleAllIn(here.cluster, f, list, token, nss[1..], replicas, pre);
      AttemptsAppend(here.log, rest.log);
    }
  }

  /** `ScaleAllResourcesWithClientset`: split the namespace string and run
      the per-namespace loop. An unsupported type is reported on the first
      namespace, before anything is listed or scaled; otherwise the result
      is success whatever happened to individual targets. */
  function ScaleAllResources(c: Cluster, f: Faults, list: Lister, resourceType: string,
                             namespaces: string, replicas: int, pre: int): (r: Run)
    ensures r.status.Err? <==> Resolve(resourceType).None?
    ensures r.status.Err? ==> r == Run(c, [], Err(UnsupportedType(resourceType)))
    ensures r.status.Ok? ==>
      var b := ScaleEach(c, f, Listed(Resolve(resourceType).value, list, SplitNamespaces(namespaces)), replicas, pre);
      r.cluster == b.cluster && Attempts(r.log) == b.log
    ensures r.status.Ok? ==>
      NonAttempts(r.log) == Reports(Resolve(resourceType).value, list, SplitNamespaces(namespaces))
  {
    var nss := SplitNamespaces(namespaces);
    match Resolve(resourceType)
    case None => ScaleAllIn(c, f, list, resourceType, nss, replicas, pre)
    case Some(_) =>
      ScaleAllInIsScaleEach(c, f, list, resourceType, nss, replicas, pre);
      ScaleAllIn(c, f, list, resourceType, nss, replicas, pre)
  }

  /** A namespace whose listing fails is reported as such and contributes
      no attempt; the loop carries on with the next namespace. */
  lemma {:induction false} FailedListingIsReported(c: Cluster, f: Faults, list: Lister, token: string,
                                                   nss: seq<string>, replicas: int, pre: int, i: nat)
    requires Resolve(token).Some? && i < |nss|
    requires list(Resolve(token).value, nss[i]).None?
    ensures ListFailed(Resolve(token).value, nss[i]) in ScaleAllIn(c, f, list, token, nss, replicas, pre).log
  {
    var k := Resolve(token).value;
    var ns := nss[0];
    var here :=
      match list(k, ns)
      case None => Batch(c, [ListFailed(k, ns)])
      case Some(names) =>
        if names == [] then Batch(c, [NoneFound(k, ns)])
        else ScaleEach(c, f, Row(CanonicalType(k), ns, names), replicas, pre);
    var rest := ScaleAllIn(here.cluster, f, list, token, nss[1..], replicas, pre);
    if i > 0 {
      FailedListingIsReported(here.cluster, f, list, token, nss[1..], replicas, pre, i - 1);
      assert ListFailed(k, nss[i]) in rest.log;
      assert ScaleAllIn(c, f, list, token, nss, replicas, pre).log == here.log + rest.log;
    }
  }

  /** A namespace listed as empty is reported as such and contributes no
      attempt; the loop carries on with the next namespace. */
  lemma {:induction false} EmptyListingIsReported(c: Cluster, f: Faults, list: Lister, token: string,
                                                  nss: seq<string>, replicas: int, pre: int, i: nat)
    requires Resolve(token).Some? && i < |nss|
    requires list(Resolve(token).value, nss[i]) == Some([])
    ensures NoneFound(Resolve(token).value, nss[i]) in ScaleAllIn(c, f, list, token, nss, replicas, pre).log
  {
    var k := Resolve(token).value;
    var ns := nss[0];
    var here :=
      match list(k, ns)
      case None => Batch(c, [ListFailed(k, ns)])
      case Some(names) =>
        if names == [] then Batch(c, [NoneFound(k, ns)])
        else ScaleEach(c, f, Row(CanonicalType(k), ns, names), replicas, pre);
    var rest := ScaleAllIn(here.cluster, f, list, token, nss[1..], replicas, pre);
    if i > 0 {
      EmptyListingIsReported(here.cluster, f, list, token, nss[1..], replicas, pre, i - 1);
      assert NoneFound(k, nss[i]) in rest.log;
      assert ScaleAllIn(c, f, list, token, nss, replicas, pre).log == here.log + rest.log;
    }
  }

  /** A target whose type resolves hits the object it addresses. */
  lemma {:induction false} HitsAt(ts: seq<Target>, i: nat)
    requires i < |ts| && TargetKey(ts[i]).Some?
    ensures Hits(ts, TargetKey(ts[i]).value)
  {
    if i > 0 {
      assert ts[1..][i - 1] == ts[i];
      HitsAt(ts[1..], i - 1);
    }
  }

  /** Every name listed in any namespace is among the targets of the
      all-resources loop. */
  lemma {:induction false} ListedContains(k: Kind, list: Lister, nss: seq<string>, i: nat, name: string)
    requires i < |nss| && list(k, nss[i]).Some? && name in list(k, nss[i]).value
    ensures Target(CanonicalType(k), nss[i], name) in Listed(k, list, nss)
  {
    var row := match list(k, nss[0]) case None => [] case Some(names) => Row(CanonicalType(k), nss[0], names);
    assert Listed(k, list, nss) == row + Listed(k, list, nss[1..]);
    if i == 0 {
      var names := list(k, nss[0]).value;
      var j :| 0 <= j < |names| && names[j] == name;
      assert row[j] == Target(CanonicalType(k), nss[0], name);
    } else {
      assert nss[1..][i - 1] == nss[i];
      ListedContains(k, list, nss[1..], i - 1, name);
    }
  }

  /** A target list hits an object iff one of its two parts does. */
  lemma {:induction false} HitsConcat(a: seq<Target>, b: seq<Target>, key: Key)
    ensures Hits(a + b, key) <==> Hits(a, key) || Hits(b, key)
  {
    if a == [] {
      assert a + b == b;
    } else {
      assert (a + b)[0] == a[0];
      assert (a + b)[1..] == a[1..] + b;
      HitsConcat(a[1..], b, key);
    }
  }

  /** A row only hits objects of the kind its type names, in its
      namespace, under one of its names. */
  lemma RowAddresses(token: string, ns: string, names: seq<string>, key: Key)
    requires Hits(Row(token, ns, names), key)
    ensures Resolve(token) == Some(key.kind) && key.namespace == ns && key.name in names
  {
    var n := HitIndex(Row(token, ns, names), key);
  }

  /** The listed targets only hit objects of the listed kind that some
      listing of a requested namespace names. */
  lemma {:induction false} ListedAddresses(k: Kind, list: Lister, nss: seq<string>, key: Key)
    requires Hits(Listed(k, list, nss), key)
    ensures && key.kind == k && key.namespace in nss
            && list(k, key.namespace).Some? && key.name in list(k, key.namespace).value
  {
    var row := match list(k, nss[0]) case None => [] case Some(names) => Row(CanonicalType(k), nss[0], names);
    assert Listed(k, list, nss) == row + Listed(k, list, nss[1..]);
    HitsConcat(row, Listed(k, list, nss[1..]), key);
    if Hits(row, key) {
      RowAddresses(CanonicalType(k), nss[0], list(k, nss[0]).value, key);
      CanonicalResolves(k);
    } else {
      ListedAddresses(k, list, nss[1..], key);
    }
  }

  /** Without a precondition and without client faults, all-resources mode
      brings every object of the requested type listed in a requested
      namespace to `int32(replicas)`, and leaves every other object as it
      was. */
  lemma AllModeReachesTarget(c: Cluster, list: Lister, resourceType: string, namespaces: string,
                             replicas: int, key: Key)
    requires Resolve(resourceType).Some? && key in c
    ensures var r := ScaleAllResources(c, NoFaults, list, resourceType, namespaces, replicas, NoPrecondition);
      var nss := SplitNamespaces(namespaces);
      var k := Resolve(resourceType).value;
      r.cluster[key]
      == if && key.kind == k && key.namespace in nss
            && list(k, key.namespace).Some? && key.name in list(k, key.namespace).value
         then Apply(key.kind, c[key], Int32Of(replicas))
         else c[key]
  {
    var nss := SplitNamespaces(namespaces);
    var k := Resolve(resourceType).value;
    var ts := Listed(k, list, nss);
    ScaleEachWithoutPrecondition(c, NoFaults, ts, replicas);
    if && key.kind == k && key.namespace in nss
       && list(k, key.namespace).Some? && key.name in list(k, key.namespace).value {
      var i :| 0 <= i < |nss| && nss[i] == key.namespace;
      ListedContains(k, list, nss, i, key.name);
      var t := Target(CanonicalType(k), key.namespace, key.name);
      var j :| 0 <= j < |ts| && ts[j] == t;
      CanonicalResolves(k);
      HitsAt(ts, j);
    } else if Hits(ts, key) {
      ListedAddresses(k, list, nss, key);
    }
  }

  // ---------------------------------------------------------------------
  // File-driven mode

  /** The identity fields of one decoded manifest document. */
  datatype Doc = Doc(kind: string, name: string, namespace: string)

  /** The target a document names: its lower-cased kind, its namespace or
      `default`, its name. */
  function DocTarget(d: Doc): (t: Target)
    ensures t.token == Lower(d.kind)
    ensures Resolve(t.token) == Resolve(d.kind)
    ensures Lower(t.token) == t.token
    ensures |t.token| == |d.kind|
    ensures t.name == d.name
    ensures d.namespace == "" ==> t.namespace == DefaultNamespace
    ensures d.namespace != "" ==> t.namespace == d.namespace
  {
    LowerIdempotent(d.kind);
    Target(Lower(d.kind), if d.namespace == "" then DefaultNamespace else d.namespace, d.name)
  }

  /** The targets of the document loop of `ScaleFromFile`, in document
      order; documents without a kind are skipped. */
  function FileTargets(docs: seq<Doc>): (ts: seq<Target>)
    ensures |ts| <= |docs|
    ensures forall i :: 0 <= i < |docs| && docs[i].kind != "" ==> DocTarget(docs[i]) in ts
    ensures forall t :: t in ts ==> exists i :: 0 <= i < |docs| && docs[i].kind != "" && DocTarget(docs[i]) == t
  {
    if docs == [] then []
    else
      var rest := FileTargets(docs[1..]);
      var r := (if docs[0].kind == "" then [] else [DocTarget(docs[0])]) + rest;
      assert forall i :: 1 <= i < |docs| ==> docs[i] == docs[1..][i - 1];
      forall t | t in r
        ensures exists i :: 0 <= i < |docs| && docs[i].kind != "" && DocTarget(docs[i]) == t
      {
        if t in rest {
          var i :| 0 <= i < |docs[1..]| && docs[1..][i].kind != "" && DocTarget(docs[1..][i]) == t;
          assert docs[i + 1] == docs[1..][i];
        }
      }
      r
  }

  /** The document loop treats documents independently and in order. */
  lemma {:induction false} FileTargetsAppend(a: seq<Doc>, b: seq<Doc>)
    ensures FileTargets(a + b) == FileTargets(a) + FileTargets(b)
  {
    if a == [] {
      assert a + b == b;
    } else {
      assert (a + b)[0] == a[0];
      assert (a + b)[1..] == a[1..] + b;
      FileTargetsAppend(a[1..], b);
      ConcatAssoc(if a[0].kind == "" then [] else [DocTarget(a[0])], FileTargets(a[1..]), FileTargets(b));
    }
  }

  /** `ScaleFromFile` after the file is opened and decoded: `docs` is the
      sequence the decoder produced before it stopped (None when the file
      could not be opened). Every document uses the same target and
      precondition and the result is success whatever their outcomes. */
  function ScaleFromFile(c: Cluster, f: Faults, docs: Option<seq<Doc>>, replicas: int, pre: int): (r: Run)
    ensures r.status.Err? <==> docs.None?
    ensures r.status.Err? ==> r == Run(c, [], Err(FileOpenFailed))
    ensures r.cluster.Keys == c.Keys
    ensures docs.Some? ==>
      var b := ScaleEach(c, f, FileTargets(docs.value), replicas, pre);
      r.cluster == b.cluster && r.log == b.log
    ensures docs.Some? ==> |r.log| == |FileTargets(docs.value)|
    ensures docs.Some? ==>
      forall i :: 0 <= i < |FileTargets(docs.value)| ==>
        r.log[i].Attempt? && r.log[i].target == FileTargets(docs.value)[i]
    ensures docs.Some? ==>
      forall key :: key in c && !Hits(FileTargets(docs.value), key) ==> r.cluster[key] == c[key]
  {
    match docs
    case None => Run(c, [], Err(FileOpenFailed))
    case Some(ds) =>
      var b := ScaleEach(c, f, FileTargets(ds), replicas, pre);
      Run(b.cluster, b.log, Ok)
  }

  /** A document with a kind names the object `key`: its kind resolves to
      the object's kind, and its name and namespace (or `default`) are the
      object's. */
  predicate DocAddresses(d: Doc, key: Key) {
    && d.kind != ""
    && Resolve(d.kind) == Some(key.kind)
    && d.name == key.name
    && (if d.namespace == "" then DefaultNamespace else d.namespace) == key.namespace
  }

  /** The document targets only address objects some document names. */
  lemma FileTargetsAddress(ds: seq<Doc>, key: Key)
    ensures Hits(FileTargets(ds), key) ==> exists i :: 0 <= i < |ds| && DocAddresses(ds[i], key)
  {
    var ts := FileTargets(ds);
    if Hits(ts, key) {
      var n := HitIndex(ts, key);
      assert ts[n] in ts;
      var i :| 0 <= i < |ds| && ds[i].kind != "" && DocTarget(ds[i]) == ts[n];
      assert DocAddresses(ds[i], key);
    }
  }

  /** Without a precondition and without client faults, file mode brings
      an object to `int32(replicas)` exactly when some document names it,
      and leaves every other object as it was. */
  lemma FileModeReachesTarget(c: Cluster, ds: seq<Doc>, replicas: int, key: Key)
    requires key in c
    ensures var r := ScaleFromFile(c, NoFaults, Some(ds), replicas, NoPrecondition);
      && r.status == Ok
      && r.cluster[key]
         == if exists i :: 0 <= i < |ds| && DocAddresses(ds[i], key)
            then Apply(key.kind, c[key], Int32Of(replicas))
            else c[key]
  {
    var ts := FileTargets(ds);
    ScaleEachWithoutPrecondition(c, NoFaults, ts, replicas);
    FileTargetsAddress(ds, key);
    if exists i :: 0 <= i < |ds| && DocAddresses(ds[i], key) {
      var i :| 0 <= i < |ds| && DocAddresses(ds[i], key);
      assert DocTarget(ds[i]) in ts;
      var j :| 0 <= j < |ts| && ts[j] == DocTarget(ds[i]);
      HitsAt(ts, j);
    }
  }
}

=== FILE: kinds.dfy ===
/** The resource kinds the scaler understands and the case-insensitive
    resolution of a resource-type token to one of them. */
module Kinds {
  import opened Options
  import opened Text

  datatype Kind =
    | Deployment
    | StatefulSet
    | ReplicaSet
    | ReplicationController
    | Job
    | CronJob
    | HorizontalPodAutoscaler

  /** The alias group of each kind, as a table: the tokens (in lower case)
      that name it. */
  function Aliases(k: Kind): set<string> {
    match k
    case Deployment => {"deployment", "deploy", "deployments"}
    case StatefulSet => {"statefulset", "sts", "statefulsets"}
    case ReplicaSet => {"replicaset", "rs", "replicasets"}
    case ReplicationController => {"replicationcontroller", "rc", "replicationcontrollers"}
    case Job => {"job", "jobs"}
    case CronJob => {"cronjob", "cj", "cronjobs"}
    case HorizontalPodAutoscaler => {"horizontalpodautoscaler", "hpa", "horizontalpodautoscalers"}
  }

  /** The type string the all-resources loop passes back to the
      single-resource scaler for each listed object. */
  function CanonicalType(k: Kind): (t: string)
    ensures t in Aliases(k)
  {
    match k
    case Deployment => "deployment"
    case StatefulSet => "statefulset"
    case ReplicaSet => "replicaset"
    case ReplicationController => "replicationcontroller"
    case Job => "job"
    case CronJob => "cronjob"
    case HorizontalPodAutoscaler => "horizontalpodautoscaler"
  }

  /** The `switch` of the scaler on an already lower-cased type token: the
      kind it names, or None for an unsupported resource type. */
  function KindOf(t: string): (r: Option<Kind>)
    ensures r.Some? ==> t in Aliases(r.value)
    ensures r.None? ==> forall k: Kind :: t !in Aliases(k)
  {
    match t
    case "deployment" | "deploy" | "deployments" => Some(Deployment)
    case "statefulset" | "sts" | "statefulsets" => Some(StatefulSet)
    case "replicaset" | "rs" | "replicasets" => Some(ReplicaSet)
    case "replicationcontroller" | "rc" | "replicationcontrollers" => Some(ReplicationController)
    case "job" | "jobs" => Some(Job)
    case "cronjob" | "cj" | "cronjobs" => Some(CronJob)
    case "horizontalpodautoscaler" | "hpa" | "horizontalpodautoscalers" => Some(HorizontalPodAutoscaler)
    case _ => None
  }

  /** `switch strings.ToLower(resourceType)`: a token resolves to a kind
      exactly when its lower-cased form is in that kind's alias group. */
  function Resolve(token: string): (r: Option<Kind>)
    ensures r.Some? ==> Lower(token) in Aliases(r.value)
    ensures r.None? ==> forall k: Kind :: Lower(token) !in Aliases(k)
  {
    KindOf(Lower(token))
  }

  /** No token names two kinds. */
  lemma AliasesDisjoint(k1: Kind, k2: Kind)
    requires k1 != k2
    ensures Aliases(k1) !! Aliases(k2)
  {
  }

  /** Both directions of the table lookup's contract for a given kind. */
  lemma KindOfExactly(t: string, k: Kind)
    ensures KindOf(t) == Some(k) <==> t in Aliases(k)
  {
    if t in Aliases(k) && KindOf(t) != Some(k) {
      var r := KindOf(t);
      if r.Some? {
        AliasesDisjoint(k, r.value);
      }
    }
  }

  /** Both directions of the resolver's contract for a given kind. */
  lemma ResolveExactly(token: string, k: Kind)
    ensures Resolve(token) == Some(k) <==> Lower(token) in Aliases(k)
  {
    KindOfExactly(Lower(token), k);
  }

  /** Resolution ignores letter case: the upper-cased and lower-cased
      spellings of a token resolve like the token itself. */
  lemma ResolveIgnoresCase(token: string)
    ensures Resolve(Upper(token)) == Resolve(token)
    ensures Resolve(Lower(token)) == Resolve(token)
  {
    LowerOfUpper(token);
    LowerIdempotent(token);
  }

  /** A word equal to one of three lower-case ASCII words is left alone by
      lower-casing. */
  lemma LowerOfOneOf(a: string, x: string, y: string, z: string)
    requires IsLowerAscii(x) && IsLowerAscii(y) && IsLowerAscii(z)
    requires a == x || a == y || a == z
    ensures Lower(a) == a
  {
    LowerOfLowerAscii(a);
  }

  /** The table spells every alias in lower case. One lemma per alias group
      keeps each proof small. */
  lemma DeploymentAliasesAreLower(a: string)
    requires a in Aliases(Deployment)
    ensures Lower(a) == a
  {
    LowerOfOneOf(a, "deployment", "deploy", "deployments");
  }

  lemma StatefulSetAliasesAreLower(a: string)
    requires a in Aliases(StatefulSet)
    ensures Lower(a) == a
  {
    LowerOfOneOf(a, "statefulset", "sts", "statefulsets");
  }

  lemma ReplicaSetAliasesAreLower(a: string)
    requires a in Aliases(ReplicaSet)
    ensures Lower(a) == a
  {
    LowerOfOneOf(a, "replicaset", "rs", "replicasets");
  }

  lemma ReplicationControllerAliasesAreLower(a: string)
    requires a in Aliases(ReplicationController)
    ensures Lower(a) == a
  {
    LowerOfOneOf(a, "replicationcontroller", "rc", "replicationcontrollers");
  }

  lemma JobAliasesAreLower(a: string)
    requires a in Aliases(Job)
    ensures Lower(a) == a
  {
    if a == "job" {
      LowerOfLowerAscii("job");
    } else {
      LowerOfLowerAscii("jobs");
    }
  }

  lemma CronJobAliasesAreLower(a: string)
    requires a in Aliases(CronJob)
    ensures Lower(a) == a
  {
    LowerOfOneOf(a, "cronjob", "cj", "cronjobs");
  }

  lemma HorizontalPodAutoscalerAliasesAreLower(a: string)
    requires a in Aliases(HorizontalPodAutoscaler)
    ensures Lower(a) == a
  {
    LowerOfOneOf(a, "horizontalpodautoscaler", "hpa", "horizontalpodautoscalers");
  }

  lemma AliasesAreLower(k: Kind, a: string)
    requires a in Aliases(k)
    ensures Lower(a) == a
  {
    match k
    case Deployment => DeploymentAliasesAreLower(a);
    case StatefulSet => StatefulSetAliasesAreLower(a);
    case ReplicaSet => ReplicaSetAliasesAreLower(a);
    case ReplicationController => ReplicationControllerAliasesAreLower(a);
    case Job => JobAliasesAreLower(a);
    case CronJob => CronJobAliasesAreLower(a);
    case HorizontalPodAutoscaler => HorizontalPodAutoscalerAliasesAreLower(a);
  }

  /** Every alias, spelled as in the table, resolves to its kind. */
  lemma AliasResolves(k: Kind, a: string)
    requires a in Aliases(k)
    ensures Resolve(a) == Some(k)
  {
    AliasesAreLower(k, a);
    KindOfExactly(a, k);
  }

  /** The canonical type string of every kind resolves back to that kind. */
  lemma CanonicalResolves(k: Kind)
    ensures Resolve(CanonicalType(k)) == Some(k)
  {
    AliasResolves(k, CanonicalType(k));
  }
}

=== FILE: options.dfy ===
/** Optional values: the model's stand-in for Go's "value, err" pairs where
    only presence matters. */
module Options {

  datatype Option<+T> = None | Some(value: T)
}

=== FILE: scaling.dfy ===
/** The single-resource scaler (`ScaleResource`): resolve the kind, read
    the object, check the precondition, write the kind's scale field; and
    the sequential fold of it over a list of targets that every fan-out
    mode reduces to. */
module Scaling {
  import opened Options
  import opened Kinds
  import opened Workloads

  /** The `--current-replicas` value that disables the precondition. */
  const NoPrecondition: int := -1

  /** Oracles for the client calls that can fail on an object that exists:
      a read (`Get`) of a key in `getFails` and a write (`Update`) of a key
      in `updateFails` fail with a client error. */
  datatype Faults = Faults(getFails: set<Key>, updateFails: set<Key>)

  const NoFaults: Faults := Faults({}, {})

  /** The result of one `ScaleResource` call; every variant but `Scaled` is
      an error the source returns. */
  datatype Outcome =
    | Scaled
    | Unsupported(token: string)
    | NotFound
    | GetFailed
    | Mismatch(observed: Int32, expected: int)
    | UpdateFailed

  datatype Step = Step(cluster: Cluster, outcome: Outcome)

  /** The object a (type token, namespace, name) triple addresses. */
  function KeyFor(token: string, namespace: string, name: string): (r: Option<Key>)
    ensures r.Some? <==> Resolve(token).Some?
    ensures r.Some? ==> r.value == Key(Resolve(token).value, namespace, name)
  {
    match Resolve(token)
    case None => None
    case Some(k) => Some(Key(k, namespace, name))
  }

  /** The check `currentReplicas != -1 && observed != currentReplicas`
      passes. */
  predicate PreconditionHolds(k: Kind, s: Spec, pre: int)
    requires Fits(k, s)
  {
    pre == NoPrecondition || Observed(k, s) == pre
  }

  /** One read-check-write cycle. Nothing is written unless the type token
      resolves, the object exists and can be read, the precondition holds
      and the update goes through; a successful write changes the
      addressed object's scale field to `int32(replicas)` and nothing else
      in the cluster. */
  function ScaleResource(c: Cluster, f: Faults, token: string, name: string, namespace: string,
                         replicas: int, pre: int): (r: Step)
    ensures r.cluster.Keys == c.Keys
    ensures r.outcome != Scaled ==> r.cluster == c
    ensures r.outcome.Unsupported? <==> Resolve(token).None?
    ensures r.outcome.Unsupported? ==> r.outcome.token == token
    ensures r.outcome.NotFound? <==>
      (var key := KeyFor(token, namespace, name);
       key.Some? && key.value !in c && key.value !in f.getFails)
    ensures r.outcome.GetFailed? <==>
      (var key := KeyFor(token, namespace, name);
       key.Some? && key.value in f.getFails)
    ensures r.outcome.Mismatch? <==>
      (var key := KeyFor(token, namespace, name);
       && key.Some? && key.value in c && key.value !in f.getFails
       && !PreconditionHolds(key.value.kind, c[key.value], pre))
    ensures r.outcome.Mismatch? ==>
      var key := KeyFor(token, namespace, name).value;
      && r.outcome.observed == Observed(key.kind, c[key])
      && r.outcome.expected == pre
    ensures r.outcome.UpdateFailed? <==>
      (var key := KeyFor(token, namespace, name);
       && key.Some? && key.value in c && key.value !in f.getFails
       && PreconditionHolds(key.value.kind, c[key.value], pre)
       && key.value in f.updateFails)
    ensures r.outcome == Scaled <==>
      (var key := KeyFor(token, namespace, name);
       && key.Some? && key.value in c
       && key.value !in f.getFails && key.value !in f.updateFails
       && PreconditionHolds(key.value.kind, c[key.value], pre))
    ensures r.outcome == Scaled ==>
      var key := KeyFor(token, namespace, name).value;
      var v := Int32Of(replicas);
      && Observed(key.kind, r.cluster[key]) == v
      && AgreeExceptScale(key.kind, c[key], r.cluster[key])
      && (key.kind == HorizontalPodAutoscaler ==> r.cluster[key].maxReplicas == v)
      && (forall other :: other in c && other != key ==> r.cluster[other] == c[other])
  {
    match Resolve(token)
    case None => Step(c, Unsupported(token))
    case Some(k) =>
      var key := Key(k, namespace, name);
      if key in f.getFails then Step(c, GetFailed)
      else if key !in c then Step(c, NotFound)
      else if !PreconditionHolds(k, c[key], pre) then Step(c, Mismatch(Observed(k, c[key]), pre))
      else if key in f.updateFails then Step(c, UpdateFailed)
      else Step(c[key := Apply(k, c[key], Int32Of(replicas))], Scaled)
  }

  /** An autoscaler that was scaled has its range collapsed to the single
      point `int32(replicas)`. */
  lemma HpaRangeCollapses(c: Cluster, f: Faults, token: string, name: string, namespace: string,
                          replicas: int, pre: int)
    requires Resolve(token) == Some(HorizontalPodAutoscaler)
    requires ScaleResource(c, f, token, name, namespace, replicas, pre).outcome == Scaled
    ensures var s := ScaleResource(c, f, token, name, namespace, replicas, pre).cluster[Key(HorizontalPodAutoscaler, namespace, name)];
      s.minReplicas == s.maxReplicas == Int32Of(replicas)
  {
  }

  /** Scaling again to the same target without a precondition succeeds and
      changes nothing: the target is already met. */
  lemma ScaleResourceIdempotent(c: Cluster, f: Faults, token: string, name: string, namespace: string,
                                replicas: int)
    requires ScaleResource(c, f, token, name, namespace, replicas, NoPrecondition).outcome == Scaled
    ensures var c1 := ScaleResource(c, f, token, name, namespace, replicas, NoPrecondition).cluster;
      ScaleResource(c1, f, token, name, namespace, replicas, NoPrecondition) == Step(c1, Scaled)
  {
    var key := KeyFor(token, namespace, name).value;
    ApplyIdempotent(key.kind, c[key], Int32Of(replicas));
  }

  /** With the target as precondition, a second call also succeeds and
      changes nothing, provided the target fits in an int32. */
  lemma ScaleResourceRepeatWithPrecondition(c: Cluster, f: Faults, token: string, name: string,
                                            namespace: string, replicas: int, pre: int)
    requires MinInt32 <= replicas <= MaxInt32
    requires ScaleResource(c, f, token, name, namespace, replicas, pre).outcome == Scaled
    ensures var c1 := ScaleResource(c, f, token, name, namespace, replicas, pre).cluster;
      ScaleResource(c1, f, token, name, namespace, replicas, replicas) == Step(c1, Scaled)
  {
    var key := KeyFor(token, namespace, name).value;
    ApplyIdempotent(key.kind, c[key], Int32Of(replicas));
  }

  /** One target of a fan-out: a type token, a namespace and a name. */
  datatype Target = Target(token: string, namespace: string, name: string)

  function TargetKey(t: Target): Option<Key> {
    KeyFor(t.token, t.namespace, t.name)
  }

  /** Some target in `ts` addresses `key`. */
  predicate Hits(ts: seq<Target>, key: Key) {
    ts != [] && (TargetKey(ts[0]) == Some(key) || Hits(ts[1..], key))
  }

  /** One line of the outcome log of a fan-out. */
  datatype Report =
    | Attempt(target: Target, outcome: Outcome)
    | ListFailed(kind: Kind, namespace: string)
    | NoneFound(kind: Kind, namespace: string)

  datatype Batch = Batch(cluster: Cluster, log: seq<Report>)

  /** Scale every target in order, carrying the cluster from one call to the
      next and never stopping on an error. The log has one attempt per
      target in target order; objects no target addresses, and objects
      whose reads or writes fail, are left as they were. */
  function ScaleEach(c: Cluster, f: Faults, ts: seq<Target>, replicas: int, pre: int): (r: Batch)
    ensures r.cluster.Keys == c.Keys
    ensures |r.log| == |ts|
    ensures forall i :: 0 <= i < |ts| ==> r.log[i].Attempt? && r.log[i].target == ts[i]
    ensures forall key :: key in c && !Hits(ts, key) ==> r.cluster[key] == c[key]
    ensures forall key :: key in c && (key in f.getFails || key in f.updateFails) ==> r.cluster[key] == c[key]
  {
    if ts == [] then Batch(c, [])
    else
      var t := ts[0];
      var s := ScaleResource(c, f, t.token, t.name, t.namespace, replicas, pre);
      var rest := ScaleEach(s.cluster, f, ts[1..], replicas, pre);
      Batch(rest.cluster, [Attempt(t, s.outcome)] + rest.log)
  }

  lemma ConcatAssoc<T>(x: seq<T>, y: seq<T>, z: seq<T>)
    ensures x + (y + z) == (x + y) + z
  {
  }

  /** Scaling `a + b` is scaling `a`, then scaling `b` from where `a` left
      the cluster; the logs concatenate. */
  lemma {:induction false} ScaleEachAppend(c: Cluster, f: Faults, a: seq<Target>, b: seq<Target>,
                                           replicas: int, pre: int)
    ensures var ra := ScaleEach(c, f, a, replicas, pre);
      var rb := ScaleEach(ra.cluster, f, b, replicas, pre);
      var r := ScaleEach(c, f, a + b, replicas, pre);
      r.cluster == rb.cluster && r.log == ra.log + rb.log
  {
    if a == [] {
      assert a + b == b;
    } else {
      var t := a[0];
      var s := ScaleResource(c, f, t.token, t.name, t.namespace, replicas, pre);
      var ab := a + b;
      assert ab[0] == t && ab[1..] == a[1..] + b;
      ScaleEachAppend(s.cluster, f, a[1..], b, replicas, pre);
      var ra := ScaleEach(s.cluster, f, a[1..], replicas, pre);
      var rb := ScaleEach(ra.cluster, f, b, replicas, pre);
      var head := [Attempt(t, s.outcome)];
      var whole := ScaleEach(c, f, ab, replicas, pre);
      var first := ScaleEach(c, f, a, replicas, pre);
      assert first.cluster == ra.cluster && first.log == head + ra.log;
      assert whole.cluster == rb.cluster && whole.log == head + (ra.log + rb.log);
      ConcatAssoc(head, ra.log, rb.log);
    }
  }

  /** The value an object ends at after a fan-out without a precondition:
      written once to `int32(replicas)` if some target addresses it and its
      read and write succeed, and unchanged otherwise. The order and
      repetition of targets do not matter. */
  ghost predicate EndsAsExpected(c: Cluster, r: Cluster, f: Faults, ts: seq<Target>, replicas: int)
    requires c.Keys == r.Keys
  {
    forall key :: key in c ==>
      r[key] == (if Hits(ts, key) && key !in f.getFails && key !in f.updateFails
                 then Apply(key.kind, c[key], Int32Of(replicas))
                 else c[key])
  }

  lemma {:induction false} ScaleEachWithoutPrecondition(c: Cluster, f: Faults, ts: seq<Target>, replicas: int)
    ensures EndsAsExpected(c, ScaleEach(c, f, ts, replicas, NoPrecondition).cluster, f, ts, replicas)
  {
    if ts != [] {
      var t := ts[0];
      var v := Int32Of(replicas);
      var s := ScaleResource(c, f, t.token, t.name, t.namespace, replicas, NoPrecondition);
      ScaleEachWithoutPrecondition(s.cluster, f, ts[1..], replicas);
      var r := ScaleEach(c, f, ts, replicas, NoPrecondition).cluster;
      forall key | key in c
        ensures r[key] == (if Hits(ts, key) && key !in f.getFails && key !in f.updateFails
                           then Apply(key.kind, c[key], v) else c[key])
      {
        if TargetKey(t) == Some(key) && key !in f.getFails && key !in f.updateFails {
          ApplyIdempotent(key.kind, c[key], v);
        }
      }
    }
  }

  /** Every object some target addresses meets the precondition. */
  ghost predicate PreconditionMet(c: Cluster, ts: seq<Target>, pre: int) {
    forall key :: key in c && Hits(ts, key) ==> PreconditionHolds(key.kind, c[key], pre)
  }

  /** A position of the target that hits `key`. */
  lemma {:induction false} HitIndex(ts: seq<Target>, key: Key) returns (n: nat)
    requires Hits(ts, key)
    ensures n < |ts| && TargetKey(ts[n]) == Some(key)
  {
    if TargetKey(ts[0]) == Some(key) {
      n := 0;
    } else {
      var m := HitIndex(ts[1..], key);
      n := m + 1;
    }
  }

  /** Every object of `c` is either as it was in `c0` or already written
      to `int32(replicas)`, the latter only when its read and write do not
      fail. */
  ghost predicate WrittenAtMostTarget(c0: Cluster, c: Cluster, f: Faults, replicas: int) {
    && c.Keys == c0.Keys
    && forall key :: key in c0 ==>
         || c[key] == c0[key]
         || (&& c[key] == Apply(key.kind, c0[key], Int32Of(replicas))
             && key !in f.getFails && key !in f.updateFails)
  }

  /** The fold from a cluster part-way between `c0` and the target: an
      object the remaining targets address, with no failing read or write,
      ends at the target; every other object stays where it is. A later
      visit to an object already written either writes the same value again
      or is refused for a mismatch without writing. */
  lemma {:induction false} ScaleEachFromPartway(c0: Cluster, c: Cluster, f: Faults, ts: seq<Target>,
                                                replicas: int, pre: int)
    requires WrittenAtMostTarget(c0, c, f, replicas)
    requires PreconditionMet(c0, ts, pre)
    ensures var r := ScaleEach(c, f, ts, replicas, pre).cluster;
      forall key :: key in c0 ==>
        r[key] == (if Hits(ts, key) && key !in f.getFails && key !in f.updateFails
                   then Apply(key.kind, c0[key], Int32Of(replicas))
                   else c[key])
  {
    if ts != [] {
      var v := Int32Of(replicas);
      var t := ts[0];
      var s := ScaleResource(c, f, t.token, t.name, t.namespace, replicas, pre);
      assert WrittenAtMostTarget(c0, s.cluster, f, replicas) by {
        forall key | key in c0
          ensures || s.cluster[key] == c0[key]
                  || (&& s.cluster[key] == Apply(key.kind, c0[key], v)
                      && key !in f.getFails && key !in f.updateFails)
        {
          if s.outcome == Scaled && TargetKey(t) == Some(key) {
            ApplyIdempotent(key.kind, c0[key], v);
          }
        }
      }
      ScaleEachFromPartway(c0, s.cluster, f, ts[1..], replicas, pre);
      var r := ScaleEach(c, f, ts, replicas, pre).cluster;
      forall key | key in c0
        ensures r[key] == (if Hits(ts, key) && key !in f.getFails && key !in f.updateFails
                           then Apply(key.kind, c0[key], v) else c[key])
      {
        if TargetKey(t) == Some(key) && key !in f.getFails && key !in f.updateFails {
          ApplyIdempotent(key.kind, c0[key], v);
        }
      }
    }
  }

  /** A precondition every addressed object meets refuses nothing that
      would change the end state: the fan-out ends exactly as it would
      without one. An object addressed twice is written on the first visit;
      the second visit writes the same value again or is refused for a
      mismatch, which only adds a line to the log. */
  lemma ScaleEachWithMetPrecondition(c: Cluster, f: Faults, ts: seq<Target>, replicas: int, pre: int)
    requires PreconditionMet(c, ts, pre)
    ensures EndsAsExpected(c, ScaleEach(c, f, ts, replicas, pre).cluster, f, ts, replicas)
  {
    ScaleEachFromPartway(c, c, f, ts, replicas, pre);
  }

  /** Running the same fan-out twice without a precondition leaves the
      cluster as the first run left it. */
  lemma ScaleEachIdempotent(c: Cluster, f: Faults, ts: seq<Target>, replicas: int)
    ensures var c1 := ScaleEach(c, f, ts, replicas, NoPrecondition).cluster;
      ScaleEach(c1, f, ts, replicas, NoPrecondition).cluster == c1
  {
    var c1 := ScaleEach(c, f, ts, replicas, NoPrecondition).cluster;
    var c2 := ScaleEach(c1, f, ts, replicas, NoPrecondition).cluster;
    ScaleEachWithoutPrecondition(c, f, ts, replicas);
    ScaleEachWithoutPrecondition(c1, f, ts, replicas);
    forall key | key in c1
      ensures c2[key] == c1[key]
    {
      if Hits(ts, key) && key !in f.getFails && key !in f.updateFails {
        ApplyIdempotent(key.kind, c[key], Int32Of(replicas));
      }
    }
  }
}

=== FILE: scenarios.dfy ===
/** The situations the repository's unit tests set up, stated as lemmas
    about the model: one deployment scaled with a met, a missed and no
    precondition, and a deployment per namespace scaled in all-resources
    mode; plus how manifest documents and positional arguments are read. */
module Scenarios {
  import opened Options
  import opened Text
  import opened Kinds
  import opened Workloads
  import opened Scaling
  import opened FanOut

  const Web: Key := Key(Deployment, "default", "test-deployment")

  /** A cluster with one deployment at three replicas. */
  const OneDeployment: Cluster := map[Web := ReplicaSpec(3, "app=web")]

  lemma DeploymentTokenResolves()
    ensures Resolve("deployment") == Some(Deployment)
  {
    CanonicalResolves(Deployment);
  }

  /** A met precondition: the deployment goes from three to five
      replicas. */
  lemma ScaleWithMetPrecondition()
    ensures ScaleResource(OneDeployment, NoFaults, "deployment", "test-deployment", "default", 5, 3)
         == Step(map[Web := ReplicaSpec(5, "app=web")], Scaled)
  {
    DeploymentTokenResolves();
  }

  /** A missed precondition: an error naming the observed three and the
      expected two, and the deployment keeps its three replicas. */
  lemma ScaleWithMissedPrecondition()
    ensures ScaleResource(OneDeployment, NoFaults, "deployment", "test-deployment", "default", 5, 2)
         == Step(OneDeployment, Mismatch(3, 2))
  {
    DeploymentTokenResolves();
  }

  /** An object that does not exist: an error and no change. */
  lemma ScaleMissingObject()
    ensures ScaleResource(OneDeployment, NoFaults, "deployment", "non-existent", "default", 5, NoPrecondition)
         == Step(OneDeployment, NotFound)
  {
    DeploymentTokenResolves();
  }

  const Namespaces: seq<string> := ["default", "staging", "production"]

  function InNs(ns: string): Key {
    Key(Deployment, ns, "test-deployment")
  }

  /** One deployment at two replicas in each of three namespaces. */
  const ThreeNamespaces: Cluster :=
    map[InNs("default") := ReplicaSpec(2, ""), InNs("staging") := ReplicaSpec(2, ""),
        InNs("production") := ReplicaSpec(2, "")]

  /** The listing of the cluster above: the one deployment of each of its
      namespaces. */
  function ListThree(k: Kind, ns: string): Option<seq<string>> {
    if k == Deployment && ns in Namespaces then Some(["test-deployment"]) else Some([])
  }

  lemma JoinedNamespacesSplitBack()
    ensures SplitNamespaces(Join(Namespaces, ',')) == Namespaces
  {
    assert Join(Namespaces, ',') == Namespaces[0] + [','] + Join(Namespaces[1..], ',');
    assert forall i :: 0 <= i < |Namespaces| ==> ',' !in Namespaces[i];
    SplitNamespacesOfJoin(Namespaces);
  }

  lemma ListedThreeNamespaces()
    ensures Listed(Deployment, ListThree, Namespaces)
         == [At("default"), At("staging"), At("production")]
  {
    assert Namespaces[1..] == ["staging", "production"];
    assert Namespaces[1..][1..] == ["production"];
  }

  function At(ns: string): Target {
    Target("deployment", ns, "test-deployment")
  }

  /** The three listed targets address the three deployments, in
      order. */
  lemma ThreeListedAddressed(ts: seq<Target>)
    requires ts == [At("default"), At("staging"), At("production")]
    ensures forall i :: 0 <= i < 3 ==> TargetKey(ts[i]) == Some(InNs(Namespaces[i]))
  {
    DeploymentTokenResolves();
  }

  /** Every deployment of the cluster is at two, so the precondition two
      holds wherever the fold goes. */
  lemma AllAtTwo(ts: seq<Target>)
    ensures PreconditionMet(ThreeNamespaces, ts, 2)
  {
  }

  /** A deployment the fold reaches, written once, ends at four. */
  lemma ReachedFour(c: Cluster, ts: seq<Target>, r: Cluster, ns: string)
    requires c == ThreeNamespaces
    requires ts == [At("default"), At("staging"), At("production")]
    requires c.Keys == r.Keys && EndsAsExpected(c, r, NoFaults, ts, 4)
    requires ns in Namespaces
    ensures InNs(ns) in r && r[InNs(ns)] == ReplicaSpec(4, "")
  {
    ThreeListedAddressed(ts);
    var i :| 0 <= i < 3 && Namespaces[i] == ns;
    HitsAt(ts, i);
    assert Int32Of(4) == 4;
  }

  /** The fold over the three listed deployments under the precondition
      two, which each of them meets. */
  lemma ScaleThreeListed(c: Cluster, ts: seq<Target>)
    requires c == ThreeNamespaces
    requires ts == [At("default"), At("staging"), At("production")]
    ensures var r := ScaleEach(c, NoFaults, ts, 4, 2).cluster;
      forall ns :: ns in Namespaces ==> InNs(ns) in r && r[InNs(ns)] == ReplicaSpec(4, "")
  {
    ThreeListedAddressed(ts);
    AllAtTwo(ts);
    ScaleEachWithMetPrecondition(c, NoFaults, ts, 4, 2);
    var r := ScaleEach(c, NoFaults, ts, 4, 2).cluster;
    forall ns | ns in Namespaces
      ensures InNs(ns) in r && r[InNs(ns)] == ReplicaSpec(4, "")
    {
      ReachedFour(c, ts, r, ns);
    }
  }

  /** All-resources mode over the comma-joined namespace list, precondition
      two, target four: the run succeeds and every deployment ends at
      four. */
  lemma ScaleAcrossNamespaces(namespaces: string)
    requires namespaces == Join(Namespaces, ',')
    ensures var r := ScaleAllResources(ThreeNamespaces, NoFaults, ListThree, "deployment", namespaces, 4, 2);
      && r.status == Ok
      && forall ns :: ns in Namespaces ==> InNs(ns) in r.cluster && r.cluster[InNs(ns)] == ReplicaSpec(4, "")
  {
    DeploymentTokenResolves();
    JoinedNamespacesSplitBack();
    ListedThreeNamespaces();
    ScaleThreeListed(ThreeNamespaces, Listed(Deployment, ListThree, Namespaces));
  }

  /** Documents of a manifest: kinds are lower-cased, a missing namespace
      becomes `default`, and a document without a kind is skipped. */
  lemma ManifestTargets()
    ensures FileTargets([Doc("Deployment", "web", "ns-a"), Doc("", "x", "ns-b"), Doc("StatefulSet", "db", "")])
         == [Target("deployment", "ns-a", "web"), Target("statefulset", "default", "db")]
  {
    assert Lower("Deployment") == "deployment";
    assert Lower("StatefulSet") == "statefulset";
  }

  /** The argument loop takes one more argument. */
  lemma ParseArgsSnoc(init: seq<string>, last: string)
    ensures ParseArgs(init + [last])
         == match ParseArgs(init)
            case Invalid(a) => Invalid(a)
            case Names(ns) =>
              match ParseToken(last)
              case None => Invalid(last)
              case Some(n) => Names(ns + [n])
  {
    assert (init + [last])[..|init|] == init;
  }

  /** Positional arguments: a `kind/name` token contributes its name and
      a bare name is kept. */
  lemma WellFormedArguments(kind: string, name: string, bare: string)
    requires '/' !in kind && '/' !in name && '/' !in bare
    ensures ParseArgs([kind + "/" + name, bare]) == Names([name, bare])
  {
    ParseTokenDropsPrefix(kind, name);
    ParseArgsSnoc([], kind + "/" + name);
    ParseArgsSnoc([kind + "/" + name], bare);
    assert [] + [kind + "/" + name] == [kind + "/" + name];
    assert [kind + "/" + name] + [bare] == [kind + "/" + name, bare];
  }

  /** A token with two slashes is malformed, and it is the first malformed
      token that is reported, whatever follows it. */
  lemma MalformedArgument(bare: string, a: string, b: string, c: string, later: string)
    requires '/' !in bare && '/' !in a && '/' !in b
    ensures ParseArgs([bare, a + "/" + b + "/" + c, later]) == Invalid(a + "/" + b + "/" + c)
  {
    var bad := a + "/" + b + "/" + c;
    assert ParseToken(bad).None? by {
      assert bad == a + ['/'] + (b + ['/'] + c);
      SplitPrefix(a, b + ['/'] + c, '/');
      SplitPrefix(b, c, '/');
    }
    ParseArgsFirstInvalid([bare, bad, later], 1);
  }
}

=== FILE: text.dfy ===
/** The string operations of Go's `strings` package that the scaler relies
    on: `ToLower`, `Split` on a one-character separator, and its inverse
    `Join`. Strings are sequences of Unicode scalar values. */
module Text {

  /** Go's `unicode.ToLower` on the runes whose lower-case form is ASCII:
      the letters A-Z, LATIN CAPITAL LETTER I WITH DOT ABOVE (U+0130, which
      Go maps to 'i') and KELVIN SIGN (U+212A, which Go maps to 'k'). Every
      other rune is left as it is; Go would map some of them to other
      non-ASCII runes, which never changes whether a token matches an
      ASCII alias. */
  function LowerChar(c: char): char {
    if 'A' <= c <= 'Z' then (c as int + 32) as char
    else if c == '\U{0130}' then 'i'
    else if c == '\U{212A}' then 'k'
    else c
  }

  /** ASCII upper-casing, used only to state case-insensitivity. */
  function UpperChar(c: char): char {
    if 'a' <= c <= 'z' then (c as int - 32) as char else c
  }

  /** `strings.ToLower`, rune by rune. */
  function Lower(s: string): (r: string)
    ensures |r| == |s|
  {
    seq(|s|, i requires 0 <= i < |s| => LowerChar(s[i]))
  }

  function Upper(s: string): (r: string)
    ensures |r| == |s|
  {
    seq(|s|, i requires 0 <= i < |s| => UpperChar(s[i]))
  }

  /** True when `s` holds only the lower-case ASCII letters. */
  predicate IsLowerAscii(s: string) {
    forall i :: 0 <= i < |s| ==> 'a' <= s[i] <= 'z'
  }

  /** Lower-casing leaves a lower-case ASCII word as it is. */
  lemma LowerOfLowerAscii(s: string)
    requires IsLowerAscii(s)
    ensures Lower(s) == s
  {
  }

  /** Lower-casing a string twice is lower-casing it once. */
  lemma LowerIdempotent(s: string)
    ensures Lower(Lower(s)) == Lower(s)
  {
  }

  /** Upper-casing first does not change the lower-cased form: the two
      strings are the same up to case. */
  lemma LowerOfUpper(s: string)
    ensures Lower(Upper(s)) == Lower(s)
  {
    forall i | 0 <= i < |s|
      ensures LowerChar(UpperChar(s[i])) == LowerChar(s[i])
    {
    }
  }

  /** Number of occurrences of `c` in `s`. */
  function Count(s: string, c: char): nat {
    if s == [] then 0
    else (if s[0] == c then 1 else 0) + Count(s[1..], c)
  }

  lemma CountZero(s: string, c: char)
    ensures Count(s, c) == 0 <==> c !in s
  {
    if s != [] {
      CountZero(s[1..], c);
      assert s == [s[0]] + s[1..];
    }
  }

  /** `strings.Split(s, string(sep))`: the maximal separator-free pieces
      of `s`, in order. Splitting the empty string gives one empty piece,
      and two adjacent separators give an empty piece between them. */
  function Split(s: string, sep: char): (parts: seq<string>)
    ensures |parts| == Count(s, sep) + 1
    ensures forall i :: 0 <= i < |parts| ==> sep !in parts[i]
  {
    if s == [] then [[]]
    else if s[0] == sep then [[]] + Split(s[1..], sep)
    else
      var rest := Split(s[1..], sep);
      [[s[0]] + rest[0]] + rest[1..]
  }

  /** `strings.Join(parts, string(sep))`. */
  function Join(parts: seq<string>, sep: char): string {
    if parts == [] then []
    else if |parts| == 1 then parts[0]
    else parts[0] + [sep] + Join(parts[1..], sep)
  }

  lemma JoinCons(x: string, p: string, rest: seq<string>, sep: char)
    ensures Join([x + p] + rest, sep) == x + Join([p] + rest, sep)
  {
    if rest != [] {
      assert ([x + p] + rest)[1..] == rest;
      assert ([p] + rest)[1..] == rest;
    }
  }

  /** Joining the pieces back with the separator gives the original
      string: Split loses nothing. */
  lemma {:induction false} JoinSplit(s: string, sep: char)
    ensures Join(Split(s, sep), sep) == s
  {
    if s == [] {
    } else if s[0] == sep {
      JoinSplit(s[1..], sep);
      var rest := Split(s[1..], sep);
      assert ([[]] + rest)[1..] == rest;
      assert s == [sep] + s[1..];
    } else {
      JoinSplit(s[1..], sep);
      var rest := Split(s[1..], sep);
      assert rest == [rest[0]] + rest[1..];
      JoinCons([s[0]], rest[0], rest[1..], sep);
      assert s == [s[0]] + s[1..];
    }
  }

  lemma {:induction false} SplitFree(p: string, sep: char)
    requires sep !in p
    ensures Split(p, sep) == [p]
  {
    if p != [] {
      assert p[0] in p;
      SplitFree(p[1..], sep);
      assert [p[0]] + p[1..] == p;
    }
  }

  lemma {:induction false} SplitPrefix(p: string, r: string, sep: char)
    requires sep !in p
    ensures Split(p + [sep] + r, sep) == [p] + Split(r, sep)
  {
    if p == [] {
      assert p + [sep] + r == [sep] + r;
      assert ([sep] + r)[1..] == r;
    } else {
      assert (p + [sep] + r)[1..] == p[1..] + [sep] + r;
      SplitPrefix(p[1..], r, sep);
      assert [p[0]] + p[1..] == p;
    }
  }

  /** Splitting a joined list of separator-free pieces gives the pieces
      back: Join and Split are inverse on such lists. */
  lemma {:induction false} SplitJoin(parts: seq<string>, sep: char)
    requires parts != []
    requires forall i :: 0 <= i < |parts| ==> sep !in parts[i]
    ensures Split(Join(parts, sep), sep) == parts
  {
    if |parts| == 1 {
      SplitFree(parts[0], sep);
    } else {
      SplitJoin(parts[1..], sep);
      SplitPrefix(parts[0], Join(parts[1..], sep), sep);
      assert parts == [parts[0]] + parts[1..];
    }
  }
}

=== FILE: workloads.dfy ===
/** The cluster state the scaler reads and writes: for each kind, the spec
    fields of its objects that matter here, keyed by kind, namespace and
    name. The cluster's own API is replaced by this immutable map. */
module Workloads {
  import opened Kinds

  const MinInt32: int := -0x8000_0000
  const MaxInt32: int := 0x7fff_ffff

  /** The Go `int32` values stored in object specs. */
  type Int32 = x: int | MinInt32 <= x <= MaxInt32

  /** Go's conversion `int32(x)` from a (64-bit) `int`: keep the low 32
      bits and read them in two's complement. It is the identity on values
      that fit, and otherwise wraps modulo 2^32. */
  function Int32Of(x: int): (r: Int32)
    ensures MinInt32 <= x <= MaxInt32 ==> r == x
    ensures (x - r) % 0x1_0000_0000 == 0
  {
    (x - MinInt32) % 0x1_0000_0000 + MinInt32
  }

  /** The spec of one object, per family of kinds. Besides the field the
      scaler touches, each variant keeps one field it must leave alone. */
  datatype Spec =
    /** Deployment, StatefulSet, ReplicaSet, ReplicationController:
        `Spec.Replicas`. */
    | ReplicaSpec(replicas: Int32, selector: string)
    /** Job: `Spec.Parallelism`. */
    | JobSpec(parallelism: Int32, completions: Int32)
    /** CronJob: `Spec.JobTemplate.Spec.Parallelism`. */
    | CronJobSpec(schedule: string, templateParallelism: Int32)
    /** HorizontalPodAutoscaler: `Spec.MinReplicas`, `Spec.MaxReplicas`. */
    | HpaSpec(minReplicas: Int32, maxReplicas: Int32, targetCpuPercent: Int32)

  /** Which spec shape an object of each kind has. */
  predicate Fits(k: Kind, s: Spec) {
    match k
    case Job => s.JobSpec?
    case CronJob => s.CronJobSpec?
    case HorizontalPodAutoscaler => s.HpaSpec?
    case _ => s.ReplicaSpec?
  }

  datatype Key = Key(kind: Kind, namespace: string, name: string)

  /** Every object has the spec shape of its kind, as the typed client
      guarantees. */
  predicate WellTyped(m: map<Key, Spec>) {
    forall key :: key in m ==> Fits(key.kind, m[key])
  }

  type Cluster = m: map<Key, Spec> | WellTyped(m) witness map[]

  /** The value the precondition is compared with: replicas, parallelism,
      the job template's parallelism, or the autoscaler's minimum. */
  function Observed(k: Kind, s: Spec): Int32
    requires Fits(k, s)
  {
    match k
    case Job => s.parallelism
    case CronJob => s.templateParallelism
    case HorizontalPodAutoscaler => s.minReplicas
    case _ => s.replicas
  }

  /** The write of the scaler: the kind's scale field becomes `v`; for an
      autoscaler both bounds become `v`. */
  function Apply(k: Kind, s: Spec, v: Int32): (t: Spec)
    requires Fits(k, s)
    ensures Fits(k, t)
    ensures Observed(k, t) == v
    ensures AgreeExceptScale(k, s, t)
    ensures k == HorizontalPodAutoscaler ==> t.maxReplicas == v
  {
    match k
    case Job => s.(parallelism := v)
    case CronJob => s.(templateParallelism := v)
    case HorizontalPodAutoscaler => s.(minReplicas := v, maxReplicas := v)
    case _ => s.(replicas := v)
  }

  /** Two specs of kind `k` agree on every field the scaler does not write. */
  predicate AgreeExceptScale(k: Kind, s: Spec, t: Spec)
    requires Fits(k, s) && Fits(k, t)
  {
    match k
    case Job => s.completions == t.completions
    case CronJob => s.schedule == t.schedule
    case HorizontalPodAutoscaler => s.targetCpuPercent == t.targetCpuPercent
    case _ => s.selector == t.selector
  }

  /** The fields the scaler writes and the fields it leaves alone together
      determine a spec: so a write is described completely by its effect on
      the scale field. */
  lemma ScaleFieldsDetermineSpec(k: Kind, s: Spec, t: Spec)
    requires Fits(k, s) && Fits(k, t)
    requires AgreeExceptScale(k, s, t)
    requires Observed(k, s) == Observed(k, t)
    requires k == HorizontalPodAutoscaler ==> s.maxReplicas == t.maxReplicas
    ensures s == t
  {
  }

  /** Writing the same value twice is writing it once. */
  lemma ApplyIdempotent(k: Kind, s: Spec, v: Int32)
    requires Fits(k, s)
    ensures Apply(k, Apply(k, s, v), v) == Apply(k, s, v)
  {
  }

  /** Writing back the value a spec already has changes nothing, except
      that an autoscaler's maximum is pulled down or up to its minimum. */
  lemma ApplyObservedIsNoOp(k: Kind, s: Spec)
    requires Fits(k, s)
    requires k == HorizontalPodAutoscaler ==> s.maxReplicas == s.minReplicas
    ensures Apply(k, s, Observed(k, s)) == s
  {
  }
}
